=== FILE: README.md ===
# API-key lifecycle of dandi, modelled in Dafny

dandi issues API keys to signed-in users, lists them per owner, and lets machine callers check
a key without a session. The key then gates a GitHub README summarizer. This project models
the parts of that lifecycle that are plain decisions and sequence transformations:

- the shared in-memory key store (`apiKeysStore`): find-first lookup, append, object-spread
  update, splice delete, and the last-used stamp;
- `GET /api/keys` and `POST /api/keys`: the session gate, the owner-scoped newest-first list,
  key selection (a trimmed override or 32 random bytes in lowercase hex), and field defaults;
- `POST /api/validate-key`: the owner-blind validity decision over the three outcomes of
  PostgREST's `.single()` (found, PGRST116, other error);
- `POST /api/github-summarizer`: the ordered 401/400/403/400 checks and the pure part of
  `getReadmeContent`. That part covers parsing `github.com/owner/repo` or `owner/repo`,
  stripping `.git`, the README URL, and the error messages derived from the HTTP status;
- the dashboard `middleware` and its `/dashboards/:path*` matcher.

The `api_keys` table is a `seq<Row>`. Sessions, store errors, store-assigned ids, clocks,
random bytes, `fetch` and the summarizer call are all parameters. JavaScript's string
operations (`trim`, `substring`, `split`, `includes`) are written out with their ECMAScript
meaning in `JsText`.

Modules, leaves first:

| module | file |
|---|---|
| `Wrappers` | `wrappers.dfy` |
| `JsText` | `jstext.dfy` |
| `Http` | `http.dfy` |
| `KeyGenerator` | `keygen.dfy` |
| `ApiKeysStore` | `store.dfy` |
| `KeyTable` | `keytable.dfy` |
| `KeysRoute` | `keysroute.dfy` |
| `ValidateKeyRoute` | `validatekey.dfy` |
| `SummarizerRoute` | `summarizer.dfy` |
| `Middleware` | `middleware.dfy` |
| `Consistency` | `consistency.dfy` |

`Consistency` relates the three handlers that share the table.

Three behaviours of the code that a reader might not expect are proved in the model:

- `.single()` reports PGRST116 for zero rows and also for several rows. Nothing in the handlers
  stops a second row from carrying the same key, because an override is trimmed and stored
  without any check against the keys already in the table; an override `" k"` collides with a
  stored `"k"`. Once a key is duplicated, the validator calls it invalid for everyone
  (`DuplicateOverrideInvalidatesKey`).
- The summarizer's comment says it validates "exactly like /api/validate-key". It does not:
  - its lookup also filters on the session user, so a key valid for the validator is refused to
    anyone but its owner;
  - a key shared by two owners passes the summarizer for either owner while the validator
    calls it invalid.

  Both directions are proved (`ValidKeyForbiddenToOtherUser`, `SharedKeyPassesGateButIsInvalid`).
  When no key value is held twice, passing the summarizer's check implies validity
  (`GateImpliesValidWhenKeysUnique`).
- In the store, `update` does not protect `id`, and `create` reuses `Date.now()` as the id. Two
  creations in one millisecond therefore share an id, and `getById` can only reach the older
  record (`CreateShadowedById`).

## Model

| member | source | states |
|---|---|---|
| JsText.Trim | app/lib/apiKeysStore.js:35 | `trim()` result is a substring of the input with only whitespace cut from both ends, has no edge whitespace, and is empty exactly when the input is all whitespace |
| JsText.TrimUnique | app/api/keys/route.js:46 | whitespace around a trimmed core is exactly what `trim()` removes, so trimming recovers the core |
| JsText.TrimIdempotent | app/api/keys/route.js:46 | trimming a trimmed string changes nothing |
| JsText.Substring | app/lib/apiKeysStore.js:36 | `substring(start, end)` yields a piece of the string no longer than `end - start`: the slice when both indices are in range, in either order, and the rest of the string from `start` when `end` is past the end, as in `substring(2, 15)` on a shorter rendering |
| JsText.SubstringNormalises | app/lib/apiKeysStore.js:36 | the two indices are interchangeable, a negative index counts as 0 and an index past the end counts as the length, so every call reduces to an in-range one |
| JsText.Split | app/api/github-summarizer/route.js:69 | `split('/')` yields at least one piece and no piece contains the separator |
| JsText.JoinSplit | app/api/github-summarizer/route.js:69-71 | joining the pieces of `split` with the separator gives the input back |
| JsText.SplitJoin | app/api/github-summarizer/route.js:69-71 | splitting separator-free pieces joined by the separator gives the pieces back |
| JsText.Includes | app/api/github-summarizer/route.js:64 | `includes(p)`: `p` occurs at some index of the string; it picks the URL branch of the reference parsing |
| JsText.NatToDecimal | app/api/github-summarizer/route.js:90 | the decimal rendering of a status is all digits with no leading zero |
| JsText.DecimalRoundTrip | app/api/github-summarizer/route.js:90 | reading the decimal rendering back gives the number |
| JsText.DecimalInjective | app/api/github-summarizer/route.js:90 | different numbers render differently |
| Http.RequiredString | app/api/validate-key/route.js:11 | the key guard lets through exactly the present, truthy strings: `null`, `false`, `0`, `""`, non-strings and an absent key are refused |
| Http.Truthy | app/api/keys/route.js:46 | JavaScript truthiness, as `providedKey && …` here and `!key` at app/api/validate-key/route.js line 11 test it: the falsy values are exactly `null`, `false`, `0` and `""` |
| Http.Field | app/api/validate-key/route.js:9 | destructuring a field: present exactly when the body has it, and then its value |
| Http.FieldOr | app/api/keys/route.js:45 | destructuring with a default: the default replaces only an absent field, never `null` |
| KeyGenerator.ByteHex | app/api/keys/route.js:8 | one byte becomes two lowercase hex digits, high nibble first, that read back as the byte |
| KeyGenerator.ToHex | app/api/keys/route.js:8 | `toString('hex')` has two lowercase hex characters per byte, byte `i` at positions `2i` and `2i+1` |
| KeyGenerator.FromHex | app/api/keys/route.js:8 | reading lowercase hex: a decoded string has two characters per byte, and an odd length never decodes |
| KeyGenerator.FromHexToHex | app/api/keys/route.js:8 | decoding the hex encoding gives the bytes back |
| KeyGenerator.ToHexFromHex | app/api/keys/route.js:8 | every decodable lowercase hex string is the encoding of what it decodes to |
| KeyGenerator.GenerateApiKey | app/api/keys/route.js:7-9 | a generated key is 64 lowercase hex characters carrying the 32 random bytes in order |
| KeyGenerator.GenerateApiKeyInjective | app/api/keys/route.js:7-9 | different random draws give different keys |
| ApiKeysStore.SeedUniqueIds | app/lib/apiKeysStore.js:3-18 | the two seed records have distinct ids and each is found by its id |
| ApiKeysStore.FindIndex | app/lib/apiKeysStore.js:47 | `findIndex` returns the first index with the id, or none exactly when no record has it |
| ApiKeysStore.GetAll | app/lib/apiKeysStore.js:22-24 | `getAll` returns a copy equal to the store and leaves the store unchanged |
| ApiKeysStore.GetById | app/lib/apiKeysStore.js:27-29 | `getById` returns a record of the store with that id and no earlier record with it, or none exactly when no record has the id |
| ApiKeysStore.GetByIdUnique | app/lib/apiKeysStore.js:27-29 | with distinct ids, `getById` returns a record exactly when it is in the store with that id |
| ApiKeysStore.NewKey | app/lib/apiKeysStore.js:36 | an issued key starts with `dk_` and has at most 26 characters after it |
| ApiKeysStore.Create | app/lib/apiKeysStore.js:32-43 | `create` appends exactly one record after the untouched old ones and returns it, with the trimmed name, the given id and time, no last use, and a `dk_` key |
| ApiKeysStore.CreateThenGet | app/lib/apiKeysStore.js:27-43 | a record created under a fresh id is what `getById` then returns |
| ApiKeysStore.CreateShadowedById | app/lib/apiKeysStore.js:27-43 | a record created under an id already taken is unreachable: `getById` still returns the older record |
| ApiKeysStore.CreateThenDelete | app/lib/apiKeysStore.js:32-71 | deleting a record just created under a fresh id restores the old store and returns the record |
| ApiKeysStore.Merge | app/lib/apiKeysStore.js:53-56 | the spread `{ ...record, ...updates }`; its field-by-field meaning is stated by `MergeFields` |
| ApiKeysStore.MergeFields | app/lib/apiKeysStore.js:53-56 | in the spread merge each field comes from `updates` when present and from the record otherwise; an empty patch changes nothing; merging twice equals merging once |
| ApiKeysStore.Update | app/lib/apiKeysStore.js:46-59 | an absent id leaves the store unchanged and returns null; a present id replaces only the first record with it by the merge and returns the merged record; length and every other record are unchanged |
| ApiKeysStore.UpdateEmptyPatch | app/lib/apiKeysStore.js:46-59 | an update with no properties leaves the store unchanged and returns what `getById` returns |
| ApiKeysStore.UpdateIdempotent | app/lib/apiKeysStore.js:46-59 | repeating an update that keeps the id changes nothing more and returns the same record |
| ApiKeysStore.UpdateThenGet | app/lib/apiKeysStore.js:27-59 | after an update that keeps the id, `getById` returns the merged record |
| ApiKeysStore.Delete | app/lib/apiKeysStore.js:62-71 | an absent id leaves the store unchanged and returns null; otherwise the first record with the id is removed and returned, the length drops by one, and the others keep their order |
| ApiKeysStore.DeleteThenGet | app/lib/apiKeysStore.js:27-71 | with distinct ids, after a delete nothing with that id is left and the ids stay distinct |
| ApiKeysStore.UpdateLastUsed | app/lib/apiKeysStore.js:74-80 | only the first record with the id gets its `lastUsed` stamped; an absent id changes nothing |
| ApiKeysStore.UpdateLastUsedIsUpdate | app/lib/apiKeysStore.js:46-80 | `updateLastUsed` leaves the store as an `update` carrying only `lastUsed` would |
| ApiKeysStore.UniqueIdsPreserved | app/lib/apiKeysStore.js:32-80 | distinct ids stay distinct under `create` with a fresh id, `updateLastUsed`, and an `update` whose patch has no `id` |
| KeyTable.OwnedBy | app/api/keys/route.js:24 | `.eq('user_id', user)` keeps every row of that owner, as often as it occurs, and no other row |
| KeyTable.WithKey | app/api/validate-key/route.js:21 | `.eq('key', key)` keeps the rows carrying the key, whoever owns them, and no other row |
| KeyTable.WithKeyOwnedBy | app/api/github-summarizer/route.js:29-30 | the two filters keep the rows with that key and owner and no other row, never more than the key filter alone |
| KeyTable.WithKeyCounts | app/api/validate-key/route.js:21 | the key filter keeps each row carrying the key exactly as many times as the table holds it, and every other row zero times |
| KeyTable.WithKeyOwnedByCounts | app/api/github-summarizer/route.js:29-30 | the key-and-owner filter keeps each row with that key and owner exactly as many times as the table holds it, and every other row zero times |
| KeyTable.OwnedWithKey | app/api/github-summarizer/route.js:29-30 | filtering on key then owner is the same as the summarizer's two chained filters |
| KeyTable.OwnersOfOneRow | app/api/github-summarizer/route.js:26-31 | when one row carries a key, the key-and-owner filter finds one row for that row's owner and none for anyone else |
| KeyTable.OwnersOfTwoRows | app/api/github-summarizer/route.js:26-31 | when two rows of different owners carry a key, the key-and-owner filter finds exactly one row for each owner |
| KeyTable.InsertNewestFirst | app/api/keys/route.js:25 | inserting into a newest-first sequence keeps it newest first and adds exactly that row |
| KeyTable.SortNewestFirst | app/api/keys/route.js:25 | `order('created_at', { ascending: false })` returns the same rows, as a multiset, newest first |
| KeyTable.Single | app/api/validate-key/route.js:22-27 | `.single()` finds a row exactly when there is no store failure and exactly one row matches; zero or several rows are both PGRST116 |
| KeyTable.SingleVerdictByCount | app/api/validate-key/route.js:22-27 | two match lists of equal length get the same kind of `.single()` answer, and the same error |
| KeyTable.WithKeyCountByKeys | app/api/validate-key/route.js:18-22 | how many rows match a key depends on the key column alone |
| KeyTable.WithKeyAppend | app/api/keys/route.js:48-61 | after an insert, the rows matching a key are the old ones plus the new row if it carries the key |
| KeyTable.WithKeyAtMostOne | app/api/validate-key/route.js:18-22 | with no key value held twice, at most one row matches a key |
| KeysRoute.ListKeys | app/api/keys/route.js:12-33 | without a session, 401 "Not authenticated"; on a store error, 500 with its message; otherwise 200 with exactly the session user's rows, with multiplicity, newest first |
| KeysRoute.SelectKey | app/api/keys/route.js:46 | a truthy non-string override throws the `trim` TypeError; a non-blank string override is used trimmed; an absent, falsy or blank override gives the generated key |
| KeysRoute.TrimmedOverrideIsKept | app/api/keys/route.js:46 | an override that is non-empty and already trimmed is the key selected, unchanged |
| KeysRoute.CreateKey | app/api/keys/route.js:36-69 | 200 exactly when there is a session, the body parses, the key selection succeeds and the store accepts; then one row is appended for the session user and returned. Without a session it is 401 with the table untouched and never 401 with one; every other failure is 500 with the table untouched: the `trim` TypeError carries its message, and a rejected insert carries the store's message |
| KeysRoute.NewRow | app/api/keys/route.js:51-58 | the inserted row's owner is the session user, its key the selected key and its time `now`, whatever the body holds; `type` and `usage` take their defaults when absent |
| KeysRoute.CreateWithKey | app/api/keys/route.js:45-65 | with a session, an object body, a usable key and an accepting store, exactly the new row is inserted and returned |
| KeysRoute.CreatedRowFields | app/api/keys/route.js:45-58 | the inserted row has the selected key and the body's name; `type` defaults to `'default'` and `usage` to 0 only when absent |
| KeysRoute.CreatedKeyIsGeneratedWithoutOverride | app/api/keys/route.js:7-9 | without a usable override the stored key is 64 hex characters decoding to the random bytes |
| KeysRoute.CreateIgnoresBodyOwner | app/api/keys/route.js:45-57 | a `user_id` in the body has no effect: the owner is always the session user |
| KeysRoute.NoSessionReadsNothing | app/api/keys/route.js:15-19 | without a session both handlers answer 401 whatever the table, store, body or randomness, and insert nothing |
| ValidateKeyRoute.DecideByVerdict | app/api/validate-key/route.js:24-35 | the decision reads only the kind of lookup answer and an error's message, never a found row's id |
| ValidateKeyRoute.Decide | app/api/validate-key/route.js:11-35 | a missing, empty or non-string key is a 400 "API key is required" and the lookup is not consulted; found is valid; PGRST116 is a plain 200 `valid: false`; any other store error is a 500 with its message |
| ValidateKeyRoute.LookupByKey | app/api/validate-key/route.js:18-22 | the lookup finds a row exactly when the store answers and one row carries the key, and errors exactly when the store fails |
| ValidateKeyRoute.Validate | app/api/validate-key/route.js:7-37 | `valid` is true exactly when the body parses, `key` is a non-empty string, the store answers, and exactly one row carries the key; an unparsable body is a 500 |
| ValidateKeyRoute.ValidateWellFormed | app/api/validate-key/route.js:18-30 | for a well-formed key with the store reachable, the answer is 200 and `valid` means exactly one row carries the key |
| ValidateKeyRoute.ShapeCheckedBeforeLookup | app/api/validate-key/route.js:11-16 | a malformed key gets the same 400 whatever the table or the store's health |
| ValidateKeyRoute.OwnerBlind | app/api/validate-key/route.js:18-22 | two tables with the same key column get the same answer: owners and other fields never matter |
| ValidateKeyRoute.UnknownKeyIsPlainFalse | app/api/validate-key/route.js:24-30 | an unknown key is a 200 with `valid: false` and no error |
| SummarizerRoute.SlashFreeRun | app/api/github-summarizer/route.js:65 | a greedy `[^\/]+` takes exactly the slash-free prefix, up to the first `/` or the end |
| SummarizerRoute.MatchAtIff | app/api/github-summarizer/route.js:65 | the pattern matches at an index with groups (owner, repo) exactly when `github.com/owner/repo` starts there with both groups non-empty and slash-free and the second followed by `/` or the end |
| SummarizerRoute.MatchAt | app/api/github-summarizer/route.js:65 | the pattern tried at one index; what a match means is stated by `MatchAtIff` |
| SummarizerRoute.Search | app/api/github-summarizer/route.js:65 | `match` finds the leftmost index where the pattern matches, or reports none when it matches nowhere |
| SummarizerRoute.ParseRepoRef | app/api/github-summarizer/route.js:64-72 | input with `github.com` yields non-empty slash-free groups or "Could not parse GitHub URL"; other input yields the two parts `owner/repo` or the "owner/repo" format error |
| SummarizerRoute.ParseGitHubIsLeftmostMatch | app/api/github-summarizer/route.js:64-67 | a URL-form input parses to the groups of the leftmost match, and fails exactly when the pattern matches nowhere |
| SummarizerRoute.ParseGitHubUrl | app/api/github-summarizer/route.js:64-67 | `https://github.com/owner/repo`, with or without a further path, parses to (owner, repo) |
| SummarizerRoute.ParseShortForm | app/api/github-summarizer/route.js:68-72 | a slash-free `owner/repo` without `github.com` parses to (owner, repo), empty parts included |
| SummarizerRoute.StripGitSuffix | app/api/github-summarizer/route.js:74 | one `.git` is removed from the very end when present; anything else is unchanged |
| SummarizerRoute.StripGitSuffixInverse | app/api/github-summarizer/route.js:74 | stripping undoes appending `.git` once only, and keeps a name slash-free |
| SummarizerRoute.ReadmeUrl | app/api/github-summarizer/route.js:76-77 | the request URL starts with the repos API base and ends with `/readme` |
| SummarizerRoute.ReadmeUrlSegments | app/api/github-summarizer/route.js:74-77 | splitting the URL text after the API base on `/` gives exactly owner, clean repo and `readme` |
| SummarizerRoute.StatusError | app/api/github-summarizer/route.js:86-91 | 404 gives "README.md not found in this repository"; any other status gives "GitHub API error: " and its decimal |
| SummarizerRoute.StatusErrorInjective | app/api/github-summarizer/route.js:86-91 | different statuses give different messages |
| SummarizerRoute.IsOk | app/api/github-summarizer/route.js:86 | `response.ok`: a status from 200 to 299 |
| SummarizerRoute.GetReadmeContent | app/api/github-summarizer/route.js:60-98 | the README text is returned exactly when parsing succeeds and the fetch answers with an OK status; every failure (parse, network, 404, other status) is rethrown with "Failed to fetch README: " in front |
| SummarizerRoute.KeyHeader | app/api/github-summarizer/route.js:20-23 | the header passes exactly when present and non-empty, and then unchanged |
| SummarizerRoute.KeyAccepted | app/api/github-summarizer/route.js:26-35 | the key check passes exactly when the store answers and exactly one row has that key and the session user |
| SummarizerRoute.Summarize | app/api/github-summarizer/route.js:12-58 | checks in order a session (401), the `x-api-key` header (400), a single row with that key and the session user (403), a string `repoUrl` (400). Once all pass, a README failure or a summarizer failure is a 500 carrying that error's message, and otherwise the answer is 200 with the summary; 200 happens only that way |
| SummarizerRoute.LookupFailureIsForbidden | app/api/github-summarizer/route.js:33-35 | a store failure during the key lookup gives 403, not 500 |
| SummarizerRoute.SessionCheckedFirst | app/api/github-summarizer/route.js:15-18 | without a session the answer is the same 401 whatever the header, table, body or collaborators |
| Middleware.GetParam | middleware.js:23 | `searchParams.get`: none exactly when no entry has the name, otherwise the value of the first entry with it |
| Middleware.WithoutNamed | middleware.js:23 | dropping the entries of one name leaves none of that name and removes nothing else |
| Middleware.WithoutNamedCounts | middleware.js:23 | every entry of another name is kept exactly as often as it occurs, and no entry of that name is kept |
| Middleware.WithoutNamedAppend | middleware.js:23 | dropping works piece by piece over a concatenation, so the kept entries keep their order |
| Middleware.IndexOfName | middleware.js:23 | the first entry with a name, or none exactly when no entry has it |
| Middleware.SetParam | middleware.js:23 | after `searchParams.set`, exactly one entry has the name and the entries of other names are unchanged |
| Middleware.SetParamAppends | middleware.js:23 | with no entry of that name, `set` appends one at the end |
| Middleware.SetParamInPlace | middleware.js:23 | with an entry of that name, `set` overwrites the first one in place and keeps every entry before it |
| Middleware.SetThenGet | middleware.js:23 | after `set`, `get` returns the value set |
| Middleware.SetParamIdempotent | middleware.js:23 | setting the same value twice equals setting it once |
| Middleware.Middleware | middleware.js:4-29 | with a session the request passes; without one it is a 302 to `/` on the same origin, with exactly one `redirectedFrom` and every other query entry kept |
| Middleware.RedirectRecordsOrigin | middleware.js:21-24 | the redirect's `redirectedFrom` is the original path, whatever it held before |
| Middleware.Gate | middleware.js:31-34 | only paths under `/dashboards` are gated: a redirect happens exactly on a matched path without a session |
| Middleware.ApiRoutesNotGated | middleware.js:31-34 | `/api/` paths always pass the gate, so each API route must check the session itself |
| Middleware.NoRedirectLoop | middleware.js:20-34 | the redirect target is not gated, so a visitor without a session is redirected once |
| Middleware.Matches | middleware.js:32-34 | the matcher `/dashboards/:path*`: `/dashboards` itself or any path below it |
| Consistency.CreatedKeyValidates | app/api/validate-key/route.js:18-30 | a key just created under a value no row held validates at once, without a session |
| Consistency.CreatedKeyListed | app/api/keys/route.js:21-25 | a key just created appears in its owner's list |
| Consistency.DuplicateOverrideInvalidatesKey | app/api/keys/route.js:46-61 | an override repeating a live key is accepted, after which the validator calls that key invalid |
| Consistency.GateImpliesValidWhenKeysUnique | app/api/github-summarizer/route.js:26-35 | when no key value is held twice, a key the summarizer accepts is valid for the validator |
| Consistency.ValidKeyForbiddenToOtherUser | app/api/github-summarizer/route.js:8 | in any table, a key the validator accepts is held by one row, and the summarizer's key check passes for a user exactly when that user owns the row |
| Consistency.SharedKeyPassesGateButIsInvalid | app/api/github-summarizer/route.js:8 | in any table, a key held by exactly two rows of different owners passes the summarizer's key check for each owner but is invalid for the validator |

## Left out

- The per-id routes `/api/keys/[id]` (owner-scoped get, update and delete): app/api/keys/[id]/route.js is not part of this model.
- The React pages, the sidebar, the playgrounds, the Supabase provider and `useApiKeys`: rendering and client plumbing.
- `summarizeReadme` (a LangChain/OpenAI call) and the network `fetch`: both are parameters of `Summarize` and `GetReadmeContent`. The `Accept` and `User-Agent` headers of the fetch are not modelled.
- Supabase itself:
  - the session is `Option<UserId>` (a boolean in the middleware), and a failing `getSession` is not modelled;
  - the table is a `seq<Row>`; an insert is accepted under a given id or rejected with a message;
  - a store error is an optional message;
  - no uniqueness constraint on `key` is assumed, since none appears in the handlers;
  - the middleware's cookie refresh and its `console.log` are not modelled.
- `crypto.randomBytes`, `Math.random`, `Date.now` and `new Date().toISOString()`: all are parameters. `Math.random().toString(36)` is an arbitrary string; `created_at` is a natural number ordered like the ISO timestamps.
- A request body that is valid JSON but not an object: `Unparsable` covers only a parse failure. JSON numbers are integers and arrays and objects are one truthy case; no float parsing is modelled.
- ApiKeysStore.Update: an `updates` object with properties other than the five record fields, or with a property explicitly set to `undefined`, is not modelled.
- ApiKeysStore.Create: calling `create` with a non-string `name` (a TypeError in `name.trim()`) is not modelled, since the parameter is a string.
- Middleware.Matches: Next.js matcher details are not modelled. This covers case-folding, `basePath`, locales, trailing-slash rewriting and percent-encoding; the predicate is "`/dashboards` or below it".
- SummarizerRoute.ReadmeUrlSegments: only the string is modelled, not how `fetch` parses it as a URL. Dot segments such as `..` are resolved, `\` counts as a path separator in `https` URLs, and `?` or `#` end the path, so a parsed owner or repo holding those can change the path GitHub receives.
- ApiKeysStore: records are values, so object identity and aliasing are not modelled. In the code, `create`, `getById`, `update` and `delete` return the live record objects and `getAll` copies only the array. `updateLastUsed` mutates the record in place, so every reference handed out earlier sees the new `lastUsed`. `update` puts a fresh object in the array, so earlier references keep the old fields. `UpdateLastUsedIsUpdate` equates only the store contents.
- Consistency: the lemmas relating handlers assume one table that every handler sees alike. In the code, app/api/validate-key/route.js queries through a module-level client imported from `lib/supabase` (not part of this model), while app/api/keys/route.js and app/api/github-summarizer/route.js use a cookie-bound client acting as the signed-in user. With row-level security or different credentials the two clients could see different rows, and `CreatedKeyValidates`, `DuplicateOverrideInvalidatesKey`, `GateImpliesValidWhenKeysUnique`, `ValidKeyForbiddenToOtherUser` and `SharedKeyPassesGateButIsInvalid` would then not carry over.
- Middleware.SetParam: query values are kept as decoded strings, and percent-encoding of the serialised URL is not modelled.
- KeysRoute.CreateKey: the store's column default for an absent `name` is not modelled; the row keeps `None`.
- The code performs no non-empty-name check, no non-negative-usage check and no key-uniqueness check, so the model has none either.

=== FILE: consistency.dfy ===
/**
 * How the three surfaces that touch the `api_keys` table relate: the owner-scoped create/list
 * handlers, the owner-blind validator, and the summarizer's owner-scoped key gate.
 */
module Consistency {
  import opened Wrappers
  import opened JsText
  import opened Http
  import opened KeyTable
  import opened KeyGenerator
  import opened KeysRoute
  import opened ValidateKeyRoute
  import opened SummarizerRoute

  /** The body a machine caller sends to the validator. */
  function ValidationRequest(key: string): RequestBody {
    Object(map["key" := JStr(key)])
  }

  /** Read-your-writes: a key just created under a fresh value validates at once, with no session. */
  lemma CreatedKeyValidates(user: UserId, fields: map<string, Json>, random: seq<byte>, now: nat, id: string, t: Table)
    requires |random| == KeyBytes
    requires CreateKey(Some(user), Object(fields), random, now, Accepted(id), t).response.status == OK
    requires forall x | x in t :: x.key != CreateKey(Some(user), Object(fields), random, now, Accepted(id), t).response.body.apiKey.key
    ensures var c := CreateKey(Some(user), Object(fields), random, now, Accepted(id), t);
      Validate(ValidationRequest(c.response.body.apiKey.key), c.table, None) == Response(OK, Validity(true, None))
  {
    var key := SelectKey(Field(fields, "key"), GenerateApiKey(random)).value;
    var row := NewRow(id, user, fields, key, now);
    CreateWithKey(user, fields, random, now, id, t, key);
    assert key != "" && forall x | x in t :: x.key != key;
    WithKeyNone(t, key);
    WithKeyAppend(t, row, key);
    ValidateWellFormed(key, t + [row]);
  }

  /** Read-your-writes: a key just created appears in its owner's list. */
  lemma CreatedKeyListed(user: UserId, fields: map<string, Json>, random: seq<byte>, now: nat, id: string, t: Table)
    requires |random| == KeyBytes
    requires CreateKey(Some(user), Object(fields), random, now, Accepted(id), t).response.status == OK
    ensures var c := CreateKey(Some(user), Object(fields), random, now, Accepted(id), t);
      c.response.body.apiKey in ListKeys(Some(user), c.table, None).body.apiKeys
  {
    var c := CreateKey(Some(user), Object(fields), random, now, Accepted(id), t);
    var row := c.response.body.apiKey;
    assert row in c.table;
    assert multiset(ListKeys(Some(user), c.table, None).body.apiKeys)[row] == multiset(c.table)[row];
  }

  /**
   * Nothing stops an override from repeating a live key. When the store accepts it, `.single()`
   * sees two rows and the validator turns the existing key invalid for everyone.
   */
  lemma DuplicateOverrideInvalidatesKey(user: UserId, k: string, random: seq<byte>, now: nat, id: string, t: Table)
    requires |random| == KeyBytes
    requires k != "" && IsTrimmed(k)
    requires |WithKey(t, k)| == 1
    ensures Validate(ValidationRequest(k), t, None) == Response(OK, Validity(true, None))
    ensures var c := CreateKey(Some(user), Object(map["key" := JStr(k)]), random, now, Accepted(id), t);
      c.response.status == OK && Validate(ValidationRequest(k), c.table, None) == Response(OK, Validity(false, None))
  {
    var fields := map["key" := JStr(k)];
    TrimmedOverrideIsKept(fields, k, GenerateApiKey(random));
    CreateWithKey(user, fields, random, now, id, t, k);
    var row := NewRow(id, user, fields, k, now);
    WithKeyAppend(t, row, k);
    ValidateWellFormed(k, t);
    ValidateWellFormed(k, t + [row]);
  }

  /** The summarizer's key gate and the validator's answer, for the same key. */
  predicate GatePasses(t: Table, k: string, user: UserId) {
    KeyAccepted(t, k, user, None)
  }

  predicate Validates(t: Table, k: string) {
    Validate(ValidationRequest(k), t, None).body.valid
  }

  /** When no key value is held twice, passing the summarizer's gate implies the validator says valid. */
  lemma GateImpliesValidWhenKeysUnique(t: Table, k: string, user: UserId)
    requires k != ""
    requires forall i, j | 0 <= i < j < |t| :: t[i].key != t[j].key
    requires GatePasses(t, k, user)
    ensures Validates(t, k)
  {
    ValidateWellFormed(k, t);
    WithKeyAtMostOne(t, k);
  }

  /**
   * A key that is valid for the validator passes the summarizer's gate for exactly one user: the
   * owner of its one row. Everyone else is refused.
   */
  lemma ValidKeyForbiddenToOtherUser(t: Table, k: string)
    requires k != "" && Validates(t, k)
    ensures |WithKey(t, k)| == 1
    ensures forall user :: GatePasses(t, k, user) <==> user == WithKey(t, k)[0].userId
  {
    ValidateWellFormed(k, t);
    forall user ensures GatePasses(t, k, user) <==> user == WithKey(t, k)[0].userId {
      OwnersOfOneRow(t, k, user);
    }
  }

  /**
   * The converse fails as well: when a key is held by exactly two rows with different owners, the
   * summarizer accepts it for either owner while the validator calls it invalid.
   */
  lemma SharedKeyPassesGateButIsInvalid(t: Table, k: string)
    requires k != ""
    requires |WithKey(t, k)| == 2 && WithKey(t, k)[0].userId != WithKey(t, k)[1].userId
    ensures !Validates(t, k)
    ensures GatePasses(t, k, WithKey(t, k)[0].userId) && GatePasses(t, k, WithKey(t, k)[1].userId)
  {
    ValidateWellFormed(k, t);
    OwnersOfTwoRows(t, k);
  }
}

=== FILE: http.dfy ===
/**
 * The request and response shapes shared by the route handlers: JSON values as a request body
 * delivers them, JavaScript truthiness, and `NextResponse.json(body, { status })`.
 */
module Http {
  import opened Wrappers

  /**
   * A JSON value as `request.json()` yields it. Numbers are kept as integers; arrays and
   * objects only matter here as truthy non-strings, so they share one case.
   */
  datatype Json = JNull | JBool(b: bool) | JNum(n: int) | JStr(s: string) | JStructured

  /** JavaScript's `!!v`. */
  predicate Truthy(v: Json)
    ensures Truthy(v) <==> v != JNull && v != JBool(false) && v != JNum(0) && v != JStr("")
  {
    match v
    case JNull => false
    case JBool(b) => b
    case JNum(n) => n != 0
    case JStr(s) => s != ""
    case JStructured => true
  }

  /** The outcome of `await request.json()`: a parse failure (thrown) or an object's fields. */
  datatype RequestBody = Unparsable(message: string) | Object(fields: map<string, Json>)

  /** Destructuring `{ name } = fields`: `None` is `undefined`. */
  function Field(fields: map<string, Json>, name: string): (v: Option<Json>)
    ensures v.Some? <==> name in fields
    ensures v.Some? ==> fields[name] == v.value
  {
    if name in fields then Some(fields[name]) else None
  }

  /** Destructuring with a default, `{ name = d }`: the default replaces `undefined` only, never `null`. */
  function FieldOr(fields: map<string, Json>, name: string, default: Json): (v: Json)
    ensures name !in fields ==> v == default
    ensures name in fields ==> v == fields[name]
  {
    if name in fields then fields[name] else default
  }

  /**
   * The guard `!v || typeof v !== 'string'` negated: the field is a non-empty string.
   * `Some(s)` is the string that passes.
   */
  function RequiredString(v: Option<Json>): (r: Option<string>)
    ensures r.Some? <==> v.Some? && Truthy(v.value) && v.value.JStr?
    ensures r.Some? ==> v == Some(JStr(r.value)) && r.value != ""
  {
    match v
    case Some(JStr(s)) => if s != "" then Some(s) else None
    case _ => None
  }

  /** `NextResponse.json(body, { status })`; `status` is 200 when the handler gives none. */
  datatype Response<B> = Response(status: nat, body: B)

  const OK: nat := 200
  const BadRequest: nat := 400
  const Unauthorized: nat := 401
  const Forbidden: nat := 403
  const ServerError: nat := 500

  /** The 401 message of every session-gated handler. */
  const NotAuthenticated: string := "Not authenticated"
  /** The 400 message for a missing key, in the body or in the `x-api-key` header. */
  const KeyRequired: string := "API key is required"
}

=== FILE: jstext.dfy ===
/**
 * The JavaScript string operations the key routes rely on, with their ECMAScript meaning:
 * `trim`, `substring`, `split` on a one-character separator (and its inverse `join`),
 * `includes`, and the decimal rendering of a non-negative number. `StartsWith` and `EndsWith`
 * are not calls the routes make: they state regular-expression anchors and the matcher's prefix.
 */
module JsText {

  /** ECMAScript WhiteSpace and LineTerminator code points: exactly what `String.prototype.trim` removes. */
  predicate IsWhitespace(c: char) {
    || c == '\t' || c == '\n' || c == '\U{000B}' || c == '\U{000C}' || c == '\r' || c == ' '
    || c == '\U{00A0}' || c == '\U{1680}' || ('\U{2000}' <= c <= '\U{200A}')
    || c == '\U{2028}' || c == '\U{2029}' || c == '\U{202F}' || c == '\U{205F}'
    || c == '\U{3000}' || c == '\U{FEFF}'
  }

  predicate AllWhitespace(s: string) {
    forall i | 0 <= i < |s| :: IsWhitespace(s[i])
  }

  /** A string with no white space at either end. */
  predicate IsTrimmed(s: string) {
    |s| == 0 || (!IsWhitespace(s[0]) && !IsWhitespace(s[|s| - 1]))
  }

  /** Length of the longest all-white-space prefix. */
  function LeadingWhitespace(s: string): (n: nat)
    ensures n <= |s|
    ensures forall i | 0 <= i < n :: IsWhitespace(s[i])
    ensures n < |s| ==> !IsWhitespace(s[n])
  {
    if |s| == 0 || !IsWhitespace(s[0]) then 0 else 1 + LeadingWhitespace(s[1..])
  }

  /** Length of the longest all-white-space suffix. */
  function TrailingWhitespace(s: string): (n: nat)
    ensures n <= |s|
    ensures forall i | |s| - n <= i < |s| :: IsWhitespace(s[i])
    ensures n < |s| ==> !IsWhitespace(s[|s| - n - 1])
  {
    if |s| == 0 || !IsWhitespace(s[|s| - 1]) then 0 else 1 + TrailingWhitespace(s[..|s| - 1])
  }

  /** `s.trim()`: the piece of `s` left after removing white space at both ends. */
  function Trim(s: string): (r: string)
    ensures IsTrimmed(r)
    ensures r == "" <==> AllWhitespace(s)
    ensures exists a :: OccursAt(s, r, a) && AllWhitespace(s[..a]) && AllWhitespace(s[a + |r|..])
  {
    var a := LeadingWhitespace(s);
    var rest := s[a..];
    var t := TrailingWhitespace(rest);
    var r := rest[..|rest| - t];
    assert OccursAt(s, r, a);
    assert s[a + |r|..] == rest[|rest| - t..];
    r
  }

  /** Trim is determined by the decomposition "white space, trimmed core, white space". */
  lemma TrimUnique(w1: string, core: string, w2: string)
    requires AllWhitespace(w1) && AllWhitespace(w2) && IsTrimmed(core)
    ensures Trim(w1 + core + w2) == core
  {
    var s := w1 + core + w2;
    if core == "" {
      assert s == w1 + w2;
      assert AllWhitespace(s);
    } else {
      var a := LeadingWhitespace(s);
      assert forall i | 0 <= i < |w1| :: s[i] == w1[i];
      assert s[|w1|] == core[0];
      assert a == |w1|;
      var rest := s[a..];
      assert rest == core + w2;
      var t := TrailingWhitespace(rest);
      assert forall i | |core| <= i < |rest| :: rest[i] == w2[i - |core|];
      assert rest[|core| - 1] == core[|core| - 1];
      assert t == |w2|;
      assert rest[..|rest| - t] == core;
    }
  }

  /** Trimming twice is trimming once. */
  lemma TrimIdempotent(s: string)
    ensures Trim(Trim(s)) == Trim(s)
  {
    var r := Trim(s);
    assert AllWhitespace("");
    assert "" + r + "" == r;
    TrimUnique("", r, "");
  }

  predicate StartsWith(s: string, prefix: string) {
    |prefix| <= |s| && s[..|prefix|] == prefix
  }

  predicate EndsWith(s: string, suffix: string) {
    |suffix| <= |s| && s[|s| - |suffix|..] == suffix
  }

  /** `p` occurs in `s` starting at index `i`. */
  predicate OccursAt(s: string, p: string, i: int) {
    0 <= i <= |s| - |p| && s[i..i + |p|] == p
  }

  /** `s.includes(p)`. */
  predicate Includes(s: string, p: string) {
    exists i | 0 <= i <= |s| :: OccursAt(s, p, i)
  }

  /** The clamping `String.prototype.substring` applies to each index. */
  function ClampIndex(x: int, len: nat): (r: nat)
    ensures r <= len
    ensures 0 <= x <= len ==> r == x
  {
    if x < 0 then 0 else if x > len then len else x
  }

  /** `s.substring(start, end)`: both indices clamped into the string, swapped when out of order. */
  function Substring(s: string, start: int, end: int): (r: string)
    ensures |r| <= |s|
    ensures 0 <= start <= end <= |s| ==> r == s[start..end]
    ensures 0 <= end <= start <= |s| ==> r == s[end..start]
    ensures 0 <= start <= |s| <= end ==> r == s[start..]
    ensures start <= end ==> |r| <= end - start
    ensures Includes(s, r)
  {
    var a := ClampIndex(start, |s|);
    var b := ClampIndex(end, |s|);
    if a <= b then assert OccursAt(s, s[a..b], a); s[a..b] else assert OccursAt(s, s[b..a], b); s[b..a]
  }

  /**
   * Every call reduces to one with both indices inside the string, in order: the indices are
   * interchangeable, a negative one counts as 0 and one past the end counts as the length.
   */
  lemma SubstringNormalises(s: string, start: int, end: int)
    ensures Substring(s, start, end) == Substring(s, end, start)
    ensures start < 0 ==> Substring(s, start, end) == Substring(s, 0, end)
    ensures end > |s| ==> Substring(s, start, end) == Substring(s, start, |s|)
  {
  }

  /** `s.split(sep)` for a one-character separator: the maximal separator-free pieces, in order. */
  function Split(s: string, sep: char): (parts: seq<string>)
    ensures |parts| >= 1
    ensures forall i | 0 <= i < |parts| :: sep !in parts[i]
  {
    if |s| == 0 then [""]
    else
      var rest := Split(s[1..], sep);
      if s[0] == sep then [""] + rest
      else [[s[0]] + rest[0]] + rest[1..]
  }

  /** `parts.join(sep)`. */
  function Join(parts: seq<string>, sep: char): string
    requires |parts| >= 1
  {
    if |parts| == 1 then parts[0] else parts[0] + [sep] + Join(parts[1..], sep)
  }

  lemma JoinConsHead(c: char, parts: seq<string>, sep: char)
    requires |parts| >= 1
    ensures Join([[c] + parts[0]] + parts[1..], sep) == [c] + Join(parts, sep)
  {
    var ps := [[c] + parts[0]] + parts[1..];
    assert ps[1..] == parts[1..];
  }

  /** Joining the pieces of a split gives the original string back. */
  lemma {:induction false} JoinSplit(s: string, sep: char)
    ensures Join(Split(s, sep), sep) == s
    decreases |s|
  {
    if |s| > 0 {
      var rest := Split(s[1..], sep);
      JoinSplit(s[1..], sep);
      if s[0] == sep {
        assert ([""] + rest)[1..] == rest;
        assert s == [s[0]] + s[1..];
      } else {
        JoinConsHead(s[0], rest, sep);
        assert s == [s[0]] + s[1..];
      }
    }
  }

  /** Splitting a join of separator-free pieces gives the pieces back. */
  lemma {:induction false} SplitJoin(parts: seq<string>, sep: char)
    requires |parts| >= 1
    requires forall i | 0 <= i < |parts| :: sep !in parts[i]
    ensures Split(Join(parts, sep), sep) == parts
    decreases |parts|, |parts[0]|
  {
    if |parts[0]| > 0 {
      var p0 := parts[0];
      var tail := [p0[1..]] + parts[1..];
      assert forall i | 0 <= i < |tail| :: sep !in tail[i] by {
        forall i | 0 <= i < |tail| ensures sep !in tail[i] {
          if i == 0 { assert forall c | c in p0[1..] :: c in p0; } else { assert tail[i] == parts[i]; }
        }
      }
      SplitJoin(tail, sep);
      assert tail[1..] == parts[1..];
      JoinConsHead(p0[0], tail, sep);
      assert [[p0[0]] + tail[0]] + tail[1..] == parts by { assert [p0[0]] + p0[1..] == p0; }
      var s := Join(parts, sep);
      assert s == [p0[0]] + Join(tail, sep);
      assert s[1..] == Join(tail, sep);
      assert s[0] == p0[0] && p0[0] != sep by { assert p0[0] in p0; }
    } else if |parts| > 1 {
      SplitJoin(parts[1..], sep);
      var s := Join(parts, sep);
      assert s == [sep] + Join(parts[1..], sep);
      assert s[1..] == Join(parts[1..], sep);
      assert parts == [""] + parts[1..];
    }
  }

  /** The two-piece case used by "owner/repo" parsing. */
  lemma SplitTwo(a: string, b: string, sep: char)
    requires sep !in a && sep !in b
    ensures Split(a + [sep] + b, sep) == [a, b]
  {
    var ps := [a, b];
    assert Join(ps[1..], sep) == b;
    SplitJoin(ps, sep);
  }

  function DigitChar(d: nat): (c: char)
    requires d < 10
    ensures '0' <= c <= '9'
  {
    "0123456789"[d]
  }

  function DigitValue(c: char): nat
    requires '0' <= c <= '9'
  {
    (c as int) - ('0' as int)
  }

  predicate IsDecimal(s: string) {
    |s| > 0 && forall i | 0 <= i < |s| :: '0' <= s[i] <= '9'
  }

  /** `String(n)` for a non-negative integer: shortest decimal rendering, no leading zero. */
  function NatToDecimal(n: nat): (s: string)
    ensures IsDecimal(s)
    ensures |s| > 1 ==> s[0] != '0'
  {
    if n < 10 then [DigitChar(n)] else NatToDecimal(n / 10) + [DigitChar(n % 10)]
  }

  /** Reading a string of decimal digits as a number (the inverse of `NatToDecimal`). */
  function DecimalValue(s: string): nat
    requires forall i | 0 <= i < |s| :: '0' <= s[i] <= '9'
  {
    if |s| == 0 then 0 else 10 * DecimalValue(s[..|s| - 1]) + DigitValue(s[|s| - 1])
  }

  lemma {:induction false} DecimalRoundTrip(n: nat)
    ensures DecimalValue(NatToDecimal(n)) == n
  {
    var s := NatToDecimal(n);
    if n < 10 {
      assert DigitValue(DigitChar(n)) == n by {
        assert "0123456789"[n] as int == '0' as int + n;
      }
    } else {
      DecimalRoundTrip(n / 10);
      assert s[..|s| - 1] == NatToDecimal(n / 10);
      assert DigitValue(DigitChar(n % 10)) == n % 10 by {
        assert "0123456789"[n % 10] as int == '0' as int + n % 10;
      }
    }
  }

  /** Distinct numbers render differently. */
  lemma DecimalInjective(m: nat, n: nat)
    requires NatToDecimal(m) == NatToDecimal(n)
    ensures m == n
  {
    DecimalRoundTrip(m);
    DecimalRoundTrip(n);
  }
}

=== FILE: keygen.dfy ===
/**
 * API key generation in the key routes: `crypto.randomBytes(32).toString('hex')`.
 * The random bytes are a parameter; the encoding is lowercase base16 (section 8 of RFC 4648,
 * with Node's lowercase alphabet), two characters per byte, high nibble first.
 */
module KeyGenerator {
  import opened Wrappers

  newtype byte = x: int | 0 <= x < 256

  /** Number of random bytes the route draws for one key. */
  const KeyBytes: nat := 32

  predicate IsLowerHex(c: char) {
    ('0' <= c <= '9') || ('a' <= c <= 'f')
  }

  /** The digit for a nibble: `0`-`9`, then `a`-`f`. */
  function HexDigit(n: nat): (c: char)
    requires n < 16
    ensures IsLowerHex(c)
  {
    if n < 10 then ('0' as int + n) as char else ('a' as int + n - 10) as char
  }

  /** Inverse of `HexDigit` on the lowercase alphabet. */
  function HexValue(c: char): (n: nat)
    requires IsLowerHex(c)
    ensures n < 16 && HexDigit(n) == c
  {
    if c <= '9' then (c as int) - ('0' as int) else (c as int) - ('a' as int) + 10
  }

  /** The two characters of one byte, high nibble first. */
  function ByteHex(b: byte): (pair: string)
    ensures |pair| == 2 && IsLowerHex(pair[0]) && IsLowerHex(pair[1])
    ensures HexValue(pair[0]) * 16 + HexValue(pair[1]) == b as nat
  {
    var hi, lo := b as nat / 16, b as nat % 16;
    assert HexValue(HexDigit(hi)) == hi && HexValue(HexDigit(lo)) == lo;
    [HexDigit(hi), HexDigit(lo)]
  }

  /** `Buffer.toString('hex')`. */
  function ToHex(bytes: seq<byte>): (s: string)
    ensures |s| == 2 * |bytes|
    ensures forall i | 0 <= i < |s| :: IsLowerHex(s[i])
    ensures forall i | 0 <= i < |bytes| :: s[2 * i..2 * i + 2] == ByteHex(bytes[i])
  {
    if |bytes| == 0 then ""
    else
      var rest := ToHex(bytes[1..]);
      var s := ByteHex(bytes[0]) + rest;
      assert forall i | 1 <= i < |bytes| :: s[2 * i..2 * i + 2] == rest[2 * (i - 1)..2 * (i - 1) + 2];
      s
  }

  /** Decoding lowercase hex back to bytes; `None` on odd length or a character outside `[0-9a-f]`. */
  function FromHex(s: string): (r: Option<seq<byte>>)
    ensures r.Some? ==> 2 * |r.value| == |s|
    ensures |s| % 2 == 1 ==> r.None?
    decreases |s|
  {
    if |s| == 0 then Some([])
    else if |s| == 1 || !IsLowerHex(s[0]) || !IsLowerHex(s[1]) then None
    else match FromHex(s[2..])
      case None => None
      case Some(rest) => Some([(HexValue(s[0]) * 16 + HexValue(s[1])) as byte] + rest)
  }

  /** Decoding reads one byte's pair off the front and carries on with the rest. */
  lemma FromHexStep(b: byte, t: string)
    ensures FromHex(ByteHex(b) + t) == if FromHex(t).Some? then Some([b] + FromHex(t).value) else None
  {
    var pair := ByteHex(b);
    var s := pair + t;
    assert s[0] == pair[0] && s[1] == pair[1] && s[2..] == t;
    assert |s| >= 2 && IsLowerHex(s[0]) && IsLowerHex(s[1]);
    assert (HexValue(s[0]) * 16 + HexValue(s[1])) as byte == b;
  }

  /** Every encoding decodes to the bytes it came from. */
  lemma {:induction false} FromHexToHex(bytes: seq<byte>)
    ensures FromHex(ToHex(bytes)) == Some(bytes)
  {
    if |bytes| > 0 {
      FromHexToHex(bytes[1..]);
      FromHexStep(bytes[0], ToHex(bytes[1..]));
      assert bytes == [bytes[0]] + bytes[1..];
    }
  }

  lemma HexValueInjective(h1: char, h2: char, l1: char, l2: char)
    requires IsLowerHex(h1) && IsLowerHex(h2) && IsLowerHex(l1) && IsLowerHex(l2)
    requires HexValue(h1) * 16 + HexValue(l1) == HexValue(h2) * 16 + HexValue(l2)
    ensures h1 == h2 && l1 == l2
  {
    assert HexValue(h1) == HexValue(h2);
    assert HexDigit(HexValue(h1)) == h1 && HexDigit(HexValue(h2)) == h2;
  }

  /** Every decodable string is the encoding of what it decodes to. */
  lemma {:induction false} ToHexFromHex(s: string)
    requires FromHex(s).Some?
    ensures ToHex(FromHex(s).value) == s
    decreases |s|
  {
    if |s| > 0 {
      var rest := FromHex(s[2..]).value;
      ToHexFromHex(s[2..]);
      var b := (HexValue(s[0]) * 16 + HexValue(s[1])) as byte;
      assert FromHex(s).value == [b] + rest;
      assert ([b] + rest)[1..] == rest;
      assert ByteHex(b) == s[..2] by {
        var p := ByteHex(b);
        HexValueInjective(p[0], s[0], p[1], s[1]);
      }
      assert s == s[..2] + s[2..];
    }
  }

  /** `generateApiKey()`: 64 lowercase hex characters carrying the 32 random bytes in order. */
  function GenerateApiKey(random: seq<byte>): (key: string)
    requires |random| == KeyBytes
    ensures |key| == 64
    ensures forall i | 0 <= i < |key| :: IsLowerHex(key[i])
    ensures FromHex(key) == Some(random)
  {
    FromHexToHex(random);
    ToHex(random)
  }

  /** Different random draws never produce the same key. */
  lemma GenerateApiKeyInjective(r1: seq<byte>, r2: seq<byte>)
    requires |r1| == KeyBytes && |r2| == KeyBytes
    requires GenerateApiKey(r1) == GenerateApiKey(r2)
    ensures r1 == r2
  {
  }
}

=== FILE: keysroute.dfy ===
/**
 * `GET /api/keys` and `POST /api/keys`: the session-gated, owner-scoped list and create handlers.
 * The session is `Some(user)` or `None`; store errors, the store-assigned row id, the insertion
 * time and the random bytes are parameters.
 */
module KeysRoute {
  import opened Wrappers
  import opened JsText
  import opened Http
  import opened KeyTable
  import opened KeyGenerator

  datatype KeysBody = KeysError(error: string) | KeyList(apiKeys: seq<Row>) | CreatedKey(apiKey: Row)

  /** The message of the TypeError `providedKey.trim()` throws when `providedKey` is truthy but not a string. */
  const TrimNotAFunction: string := "providedKey.trim is not a function"

  /** `GET`: the session user's rows, newest first; 401 without a session, 500 on a store error. */
  function ListKeys(session: Option<UserId>, t: Table, failure: Option<string>): (r: Response<KeysBody>)
    ensures session.None? ==> r == Response(Unauthorized, KeysError(NotAuthenticated))
    ensures session.Some? && failure.Some? ==> r == Response(ServerError, KeysError(failure.value))
    ensures session.Some? && failure.None? ==> r.status == OK && r.body.KeyList?
    ensures r.body.KeyList? ==> NewestFirst(r.body.apiKeys)
    ensures r.body.KeyList? ==> forall x :: multiset(r.body.apiKeys)[x] == if x.userId == session.value then multiset(t)[x] else 0
  {
    match session
    case None => Response(Unauthorized, KeysError(NotAuthenticated))
    case Some(user) =>
      if failure.Some? then Response(ServerError, KeysError(failure.value))
      else Response(OK, KeyList(SortNewestFirst(OwnedBy(t, user))))
  }

  /**
   * `providedKey && providedKey.trim() !== '' ? providedKey.trim() : generateApiKey()`.
   * A truthy non-string has no `trim` and throws.
   */
  function SelectKey(provided: Option<Json>, generated: string): (r: Result<string, string>)
    ensures r.Err? <==> provided.Some? && Truthy(provided.value) && !provided.value.JStr?
    ensures r.Err? ==> r.error == TrimNotAFunction
    ensures provided.Some? && provided.value.JStr? && !AllWhitespace(provided.value.s) ==>
      r == Ok(Trim(provided.value.s)) && r.value != "" && IsTrimmed(r.value)
    ensures provided.None? || !Truthy(provided.value) || (provided.value.JStr? && AllWhitespace(provided.value.s)) ==>
      r == Ok(generated)
  {
    match provided
    case None => Ok(generated)
    case Some(v) =>
      if !Truthy(v) then Ok(generated)
      else if v.JStr? then (if Trim(v.s) != "" then Ok(Trim(v.s)) else Ok(generated))
      else Err(TrimNotAFunction)
  }

  /** An override that is already trimmed and non-empty is stored exactly as sent. */
  lemma TrimmedOverrideIsKept(fields: map<string, Json>, k: string, generated: string)
    requires k != "" && IsTrimmed(k) && fields == map["key" := JStr(k)]
    ensures SelectKey(Field(fields, "key"), generated) == Ok(k)
  {
    assert Trim(k) == k by {
      assert AllWhitespace("") && "" + k + "" == k;
      TrimUnique("", k, "");
    }
    assert Field(fields, "key") == Some(JStr(k));
  }

  /** What the store says about the insert: accepted under a store-assigned id, or rejected. */
  datatype InsertOutcome = Accepted(id: string) | Rejected(message: string)

  /** The table after the handler, and its response. */
  datatype Created = Created(table: Table, response: Response<KeysBody>)

  /** The row `POST` asks the store to insert for `user`, given the selected key. */
  function NewRow(id: string, user: UserId, fields: map<string, Json>, key: string, now: nat): (r: Row)
    ensures r.userId == user && r.key == key && r.createdAt == now
    ensures "type" !in fields ==> r.kind == JStr("default")
    ensures "usage" !in fields ==> r.usage == JNum(0)
  {
    Row(id, user, key, Field(fields, "name"), FieldOr(fields, "type", JStr("default")), FieldOr(fields, "usage", JNum(0)), now)
  }

  /**
   * `POST`: creates one row for the session user. The body's `name`, `key`, `type` and `usage`
   * are read; `user_id` and `created_at` never come from the body.
   */
  function CreateKey(session: Option<UserId>, body: RequestBody, random: seq<byte>, now: nat, insert: InsertOutcome, t: Table): (c: Created)
    requires |random| == KeyBytes
    ensures session.None? ==> c == Created(t, Response(Unauthorized, KeysError(NotAuthenticated)))
    ensures c.response.status != OK ==> c.table == t && c.response.body.KeysError?
    ensures c.response.status in {OK, Unauthorized, ServerError}
    ensures c.response.status == OK <==>
      (session.Some? && body.Object? && insert.Accepted? && SelectKey(Field(body.fields, "key"), GenerateApiKey(random)).Ok?)
    ensures c.response.status == OK ==>
      (&& c.response.body.CreatedKey?
       && c.table == t + [c.response.body.apiKey]
       && c.response.body.apiKey.userId == session.value
       && c.response.body.apiKey.id == insert.id
       && c.response.body.apiKey.createdAt == now
       && c.response.body.apiKey.key != "")
    ensures session.Some? && body.Unparsable? ==> c.response == Response(ServerError, KeysError(body.message))
    ensures session.Some? ==> c.response.status != Unauthorized
    ensures session.Some? && body.Object? && SelectKey(Field(body.fields, "key"), GenerateApiKey(random)).Err? ==>
      c.response == Response(ServerError, KeysError(TrimNotAFunction))
    ensures session.Some? && body.Object? && SelectKey(Field(body.fields, "key"), GenerateApiKey(random)).Ok? && insert.Rejected? ==>
      c.response == Response(ServerError, KeysError(insert.message))
    ensures session.Some? && body.Object? && insert.Rejected? ==> c.response.status == ServerError
  {
    match session
    case None => Created(t, Response(Unauthorized, KeysError(NotAuthenticated)))
    case Some(user) =>
      match body
      case Unparsable(message) => Created(t, Response(ServerError, KeysError(message)))
      case Object(fields) =>
        match SelectKey(Field(fields, "key"), GenerateApiKey(random))
        case Err(message) => Created(t, Response(ServerError, KeysError(message)))
        case Ok(key) =>
          match insert
          case Rejected(message) => Created(t, Response(ServerError, KeysError(message)))
          case Accepted(id) =>
            var row := NewRow(id, user, fields, key, now);
            Created(t + [row], Response(OK, CreatedKey(row)))
  }

  /** With a session, an object body, a usable key and an accepting store, exactly the new row is inserted and returned. */
  lemma CreateWithKey(user: UserId, fields: map<string, Json>, random: seq<byte>, now: nat, id: string, t: Table, key: string)
    requires |random| == KeyBytes
    requires SelectKey(Field(fields, "key"), GenerateApiKey(random)) == Ok(key)
    ensures var row := NewRow(id, user, fields, key, now);
      CreateKey(Some(user), Object(fields), random, now, Accepted(id), t) == Created(t + [row], Response(OK, CreatedKey(row)))
  {
  }

  /** The created row carries the selected key and the body's fields, with `type` and `usage` defaulted when absent. */
  lemma CreatedRowFields(user: UserId, fields: map<string, Json>, random: seq<byte>, now: nat, id: string, t: Table)
    requires |random| == KeyBytes
    requires CreateKey(Some(user), Object(fields), random, now, Accepted(id), t).response.status == OK
    ensures var row := CreateKey(Some(user), Object(fields), random, now, Accepted(id), t).response.body.apiKey;
      && row.key == SelectKey(Field(fields, "key"), GenerateApiKey(random)).value
      && row.name == Field(fields, "name")
      && ("type" !in fields ==> row.kind == JStr("default"))
      && ("type" in fields ==> row.kind == fields["type"])
      && ("usage" !in fields ==> row.usage == JNum(0))
      && ("usage" in fields ==> row.usage == fields["usage"])
  {
  }

  /** A key without a usable override is a fresh 64-character hex key. */
  lemma CreatedKeyIsGeneratedWithoutOverride(user: UserId, fields: map<string, Json>, random: seq<byte>, now: nat, id: string, t: Table)
    requires |random| == KeyBytes
    requires "key" !in fields || !Truthy(fields["key"]) || (fields["key"].JStr? && AllWhitespace(fields["key"].s))
    ensures var c := CreateKey(Some(user), Object(fields), random, now, Accepted(id), t);
      c.response.status == OK && |c.response.body.apiKey.key| == 64 && FromHex(c.response.body.apiKey.key) == Some(random)
  {
  }

  /** An owner named in the body is ignored: the row's owner is always the session user. */
  lemma CreateIgnoresBodyOwner(user: UserId, fields: map<string, Json>, claimed: Json, random: seq<byte>, now: nat, insert: InsertOutcome, t: Table)
    requires |random| == KeyBytes
    ensures CreateKey(Some(user), Object(fields["user_id" := claimed]), random, now, insert, t)
         == CreateKey(Some(user), Object(fields - {"user_id"}), random, now, insert, t)
  {
    var f1 := fields["user_id" := claimed];
    var f2 := fields - {"user_id"};
    assert Field(f1, "key") == Field(f2, "key");
    assert Field(f1, "name") == Field(f2, "name");
    assert FieldOr(f1, "type", JStr("default")) == FieldOr(f2, "type", JStr("default"));
    assert FieldOr(f1, "usage", JNum(0)) == FieldOr(f2, "usage", JNum(0));
  }

  /** Without a session neither handler looks at the table, the store or the body. */
  lemma NoSessionReadsNothing(t1: Table, t2: Table, f1: Option<string>, f2: Option<string>,
                              b1: RequestBody, b2: RequestBody, r1: seq<byte>, r2: seq<byte>,
                              n1: nat, n2: nat, i1: InsertOutcome, i2: InsertOutcome)
    requires |r1| == KeyBytes && |r2| == KeyBytes
    ensures ListKeys(None, t1, f1) == ListKeys(None, t2, f2)
    ensures CreateKey(None, b1, r1, n1, i1, t1).response == CreateKey(None, b2, r2, n2, i2, t2).response
    ensures CreateKey(None, b1, r1, n1, i1, t1).table == t1
  {
  }
}

=== FILE: keytable.dfy ===
/**
 * The `api_keys` table as the route handlers see it through the query client: a sequence of rows,
 * equality filters, ordering by `created_at`, and `.single()`. No uniqueness constraint on `key`
 * is assumed, because none is stated anywhere in the handlers.
 */
module KeyTable {
  import opened Wrappers
  import opened Http

  type UserId = string

  /**
   * One row. `name` is `None` when the insert did not carry it (the column default then applies);
   * `createdAt` is the insertion time as a number, ordered like the ISO timestamps the routes write.
   */
  datatype Row = Row(id: string, userId: UserId, key: string, name: Option<Json>, kind: Json, usage: Json, createdAt: nat)

  type Table = seq<Row>

  /** `.eq('user_id', user)`: the rows of one owner, in table order. */
  function OwnedBy(t: Table, user: UserId): (r: Table)
    ensures forall x | x in r :: x in t && x.userId == user
    ensures forall x | x in t && x.userId == user :: x in r
    ensures forall x :: multiset(r)[x] == if x.userId == user then multiset(t)[x] else 0
  {
    if |t| == 0 then []
    else
      assert t == [t[0]] + t[1..];
      if t[0].userId == user then [t[0]] + OwnedBy(t[1..], user) else OwnedBy(t[1..], user)
  }

  /** `.eq('key', key)`: the rows carrying a key, whoever owns them. */
  function WithKey(t: Table, key: string): (r: Table)
    ensures forall x | x in r :: x in t && x.key == key
    ensures forall x | x in t && x.key == key :: x in r
    ensures |r| <= |t|
  {
    if |t| == 0 then []
    else
      assert t == [t[0]] + t[1..];
      if t[0].key == key then [t[0]] + WithKey(t[1..], key) else WithKey(t[1..], key)
  }

  /** `.eq('key', key).eq('user_id', user)`. */
  function WithKeyOwnedBy(t: Table, key: string, user: UserId): (r: Table)
    ensures forall x | x in r :: x in t && x.key == key && x.userId == user
    ensures forall x | x in t && x.key == key && x.userId == user :: x in r
    ensures |r| <= |WithKey(t, key)|
  {
    if |t| == 0 then []
    else
      assert t == [t[0]] + t[1..];
      if t[0].key == key && t[0].userId == user then [t[0]] + WithKeyOwnedBy(t[1..], key, user)
      else WithKeyOwnedBy(t[1..], key, user)
  }

  /**
   * The key filter keeps every matching row as often as the table holds it and nothing else.
   * Stated as a lemma rather than on `WithKey` itself so that callers reasoning about lengths
   * do not carry a multiset quantifier.
   */
  lemma {:induction false} WithKeyCounts(t: Table, key: string)
    ensures forall x :: multiset(WithKey(t, key))[x] == if x.key == key then multiset(t)[x] else 0
    decreases |t|
  {
    if |t| > 0 {
      assert t == [t[0]] + t[1..];
      WithKeyCounts(t[1..], key);
    }
  }

  /** The same for the key-and-owner filter. */
  lemma {:induction false} WithKeyOwnedByCounts(t: Table, key: string, user: UserId)
    ensures forall x ::
              multiset(WithKeyOwnedBy(t, key, user))[x] == if x.key == key && x.userId == user then multiset(t)[x] else 0
    decreases |t|
  {
    if |t| > 0 {
      assert t == [t[0]] + t[1..];
      WithKeyOwnedByCounts(t[1..], key, user);
    }
  }

  /** `order('created_at', { ascending: false })` holds of a sequence. */
  predicate NewestFirst(rows: seq<Row>) {
    forall i, j | 0 <= i < j < |rows| :: rows[i].createdAt >= rows[j].createdAt
  }

  /** A row no older than any row of a newest-first sequence can go in front of it. */
  lemma ConsNewestFirst(x: Row, rest: seq<Row>)
    requires NewestFirst(rest)
    requires forall y | y in rest :: y.createdAt <= x.createdAt
    ensures NewestFirst([x] + rest)
  {
    var r := [x] + rest;
    forall i, j | 0 <= i < j < |r| ensures r[i].createdAt >= r[j].createdAt {
      assert r[j] == rest[j - 1];
      if i > 0 { assert r[i] == rest[i - 1]; }
    }
  }

  /** Rearranging the tail of a newest-first sequence plus an older row keeps everything behind the head. */
  lemma NoNewerThanHead(x: Row, rows: seq<Row>, rest: seq<Row>)
    requires NewestFirst(rows) && |rows| > 0 && x.createdAt < rows[0].createdAt
    requires multiset(rest) == multiset(rows[1..]) + multiset{x}
    ensures forall y | y in rest :: y.createdAt <= rows[0].createdAt
  {
    forall y | y in rest ensures y.createdAt <= rows[0].createdAt {
      assert y in multiset(rest);
      if y != x {
        assert y in multiset(rows[1..]);
        var k :| 0 <= k < |rows[1..]| && rows[1..][k] == y;
        assert rows[k + 1] == y;
      }
    }
  }

  /** Places one row into a newest-first sequence. */
  function InsertNewestFirst(x: Row, rows: seq<Row>): (r: seq<Row>)
    requires NewestFirst(rows)
    ensures NewestFirst(r)
    ensures multiset(r) == multiset(rows) + multiset{x}
  {
    if |rows| == 0 then [x]
    else if x.createdAt >= rows[0].createdAt then
      ConsNewestFirst(x, rows);
      [x] + rows
    else
      var rest := InsertNewestFirst(x, rows[1..]);
      assert rows == [rows[0]] + rows[1..];
      NoNewerThanHead(x, rows, rest);
      ConsNewestFirst(rows[0], rest);
      [rows[0]] + rest
  }

  /** Orders rows newest first. Rows with equal `created_at` may come in any order in the store; this picks one. */
  function SortNewestFirst(rows: seq<Row>): (r: seq<Row>)
    ensures NewestFirst(r)
    ensures multiset(r) == multiset(rows)
  {
    if |rows| == 0 then []
    else
      assert rows == [rows[0]] + rows[1..];
      InsertNewestFirst(rows[0], SortNewestFirst(rows[1..]))
  }

  /** What `.single()` reports: the one matching row's `id`, its code PGRST116, or another store error. */
  datatype Lookup = Found(id: string) | NotFound | OtherError(message: string)

  /**
   * `.single()` over the matching rows: an infrastructure `failure` wins; otherwise exactly one
   * row is found and zero or several rows are both PGRST116.
   */
  function Single(matching: seq<Row>, failure: Option<string>): (r: Lookup)
    ensures r.OtherError? <==> failure.Some?
    ensures r.Found? <==> failure.None? && |matching| == 1
    ensures r.Found? ==> r.id == matching[0].id
  {
    if failure.Some? then OtherError(failure.value)
    else if |matching| == 1 then Found(matching[0].id)
    else NotFound
  }

  /** Two lookup answers a caller cannot tell apart without reading a found row's id. */
  predicate SameVerdict(a: Lookup, b: Lookup) {
    a.Found? == b.Found? && a.NotFound? == b.NotFound? && (a.OtherError? ==> a == b)
  }

  /** `.single()` decides only by how many rows match, not by which. */
  lemma SingleVerdictByCount(m1: seq<Row>, m2: seq<Row>, failure: Option<string>)
    requires |m1| == |m2|
    ensures SameVerdict(Single(m1, failure), Single(m2, failure))
  {
  }

  /** The key column, in table order. */
  function Keys(t: Table): (ks: seq<string>)
    ensures |ks| == |t| && forall i | 0 <= i < |t| :: ks[i] == t[i].key
  {
    if |t| == 0 then [] else [t[0].key] + Keys(t[1..])
  }

  /** Which rows match a key depends only on the key column. */
  lemma {:induction false} WithKeyCountByKeys(t1: Table, t2: Table, key: string)
    requires Keys(t1) == Keys(t2)
    ensures |WithKey(t1, key)| == |WithKey(t2, key)|
    decreases |t1|
  {
    if |t1| > 0 {
      assert Keys(t1[1..]) == Keys(t1)[1..] && Keys(t2[1..]) == Keys(t2)[1..];
      assert t1[0].key == Keys(t1)[0] == Keys(t2)[0] == t2[0].key;
      WithKeyCountByKeys(t1[1..], t2[1..], key);
    }
  }

  /** Rows appended after a table keep its key matches and add their own. */
  lemma {:induction false} WithKeyAppend(t: Table, x: Row, key: string)
    ensures WithKey(t + [x], key) == WithKey(t, key) + (if x.key == key then [x] else [])
    decreases |t|
  {
    if |t| > 0 {
      AppendTail(t, x);
      WithKeyUnfold(t + [x], key);
      WithKeyUnfold(t, key);
      WithKeyAppend(t[1..], x, key);
      var h, w, e := if t[0].key == key then [t[0]] else [], WithKey(t[1..], key), if x.key == key then [x] else [];
      assert h + (w + e) == (h + w) + e;
    } else {
      assert t + [x] == [x];
    }
  }

  lemma WithKeyUnfold(t: Table, key: string)
    requires |t| > 0
    ensures WithKey(t, key) == (if t[0].key == key then [t[0]] else []) + WithKey(t[1..], key)
  {
  }

  lemma AppendTail(t: Table, x: Row)
    requires |t| > 0
    ensures (t + [x])[0] == t[0] && (t + [x])[1..] == t[1..] + [x]
  {
  }

  /** With no key duplicated, at most one row matches a key. */
  lemma {:induction false} WithKeyAtMostOne(t: Table, key: string)
    requires forall i, j | 0 <= i < j < |t| :: t[i].key != t[j].key
    ensures |WithKey(t, key)| <= 1
    decreases |t|
  {
    if |t| > 0 {
      WithKeyAtMostOne(t[1..], key);
      if t[0].key == key {
        assert forall x | x in t[1..] :: x.key != key;
        WithKeyNone(t[1..], key);
      }
    }
  }

  lemma WithKeyNone(t: Table, key: string)
    requires forall x | x in t :: x.key != key
    ensures WithKey(t, key) == []
  {
  }

  /** The key-and-owner filter is the key filter followed by the owner filter. */
  lemma {:induction false} OwnedWithKey(t: Table, k: string, user: UserId)
    ensures WithKeyOwnedBy(t, k, user) == OwnedBy(WithKey(t, k), user)
    decreases |t|
  {
    if |t| > 0 {
      OwnedWithKey(t[1..], k, user);
      if t[0].key == k {
        var w := [t[0]] + WithKey(t[1..], k);
        assert w[0] == t[0] && w[1..] == WithKey(t[1..], k);
      }
    }
  }

  /** With one row holding a key, the key-and-owner filter finds it for that row's owner only. */
  lemma OwnersOfOneRow(t: Table, k: string, user: UserId)
    requires |WithKey(t, k)| == 1
    ensures |WithKeyOwnedBy(t, k, user)| == if user == WithKey(t, k)[0].userId then 1 else 0
  {
    var w := WithKey(t, k);
    OwnedWithKey(t, k, user);
    assert w == [w[0]];
    assert OwnedBy([w[0]], user) == if w[0].userId == user then [w[0]] else [];
  }

  /** With two rows of different owners holding a key, the key-and-owner filter finds one row for each owner. */
  lemma OwnersOfTwoRows(t: Table, k: string)
    requires |WithKey(t, k)| == 2 && WithKey(t, k)[0].userId != WithKey(t, k)[1].userId
    ensures |WithKeyOwnedBy(t, k, WithKey(t, k)[0].userId)| == 1
    ensures |WithKeyOwnedBy(t, k, WithKey(t, k)[1].userId)| == 1
  {
    var w := WithKey(t, k);
    assert w == [w[0]] + [w[1]];
    OwnedWithKey(t, k, w[0].userId);
    OwnedWithKey(t, k, w[1].userId);
    OwnedOfPair(w[0], w[1], w[0].userId);
    OwnedOfPair(w[0], w[1], w[1].userId);
  }

  lemma OwnedOfPair(a: Row, b: Row, user: UserId)
    requires a.userId != b.userId && (user == a.userId || user == b.userId)
    ensures |OwnedBy([a] + [b], user)| == 1
  {
    var p := [a] + [b];
    assert p[1..] == [b] && p[1..][1..] == [];
  }
}

=== FILE: middleware.dfy ===
/**
 * The dashboard session gate: the middleware function and the path matcher that decides which
 * requests it runs on. The session is reduced to whether one is present; the URL keeps the parts
 * the redirect touches.
 */
module Middleware {
  import opened Wrappers
  import opened JsText

  /** One `name=value` entry of a query string, in order. */
  datatype Param = Param(name: string, value: string)

  /** `req.nextUrl`: origin, path, query entries in order, fragment. */
  datatype Url = Url(origin: string, pathname: string, query: seq<Param>, hash: string)

  /** `NextResponse.next()` or `NextResponse.redirect(location, { status })`. */
  datatype Outcome = Next | Redirect(location: Url, status: nat)

  const RedirectStatus: nat := 302
  const RedirectParam: string := "redirectedFrom"

  function CountNamed(q: seq<Param>, name: string): nat {
    if |q| == 0 then 0 else (if q[0].name == name then 1 else 0) + CountNamed(q[1..], name)
  }

  /** The entries with any other name, in order. */
  function WithoutNamed(q: seq<Param>, name: string): (r: seq<Param>)
    ensures CountNamed(r, name) == 0
    ensures |r| == |q| - CountNamed(q, name)
  {
    if |q| == 0 then []
    else if q[0].name == name then WithoutNamed(q[1..], name)
    else [q[0]] + WithoutNamed(q[1..], name)
  }

  /** Index of the first entry named `name`. */
  function IndexOfName(q: seq<Param>, name: string): (k: Option<nat>)
    ensures k.Some? ==> k.value < |q| && q[k.value].name == name && forall j | 0 <= j < k.value :: q[j].name != name
    ensures k.None? <==> CountNamed(q, name) == 0
  {
    if |q| == 0 then None
    else if q[0].name == name then Some(0)
    else match IndexOfName(q[1..], name)
      case None => None
      case Some(i) => assert q[1..][i] == q[i + 1]; Some(i + 1)
  }

  /** `searchParams.get(name)`: the value of the first entry with that name. */
  function GetParam(q: seq<Param>, name: string): (r: Option<string>)
    ensures r.None? <==> CountNamed(q, name) == 0
    ensures r.Some? ==> exists i | 0 <= i < |q| :: q[i] == Param(name, r.value) && forall j | 0 <= j < i :: q[j].name != name
  {
    match IndexOfName(q, name)
    case None => None
    case Some(i) => Some(q[i].value)
  }

  /**
   * `searchParams.set(name, value)` as the URL Standard defines it: the first entry with that name
   * gets the value and all later ones are removed; with none, the entry is appended.
   */
  function SetParam(q: seq<Param>, name: string, value: string): (r: seq<Param>)
    ensures CountNamed(r, name) == 1
    ensures WithoutNamed(r, name) == WithoutNamed(q, name)
  {
    if |q| == 0 then [Param(name, value)]
    else if q[0].name == name then
      var w := WithoutNamed(q[1..], name);
      WithoutNamedNone(w, name);
      assert ([Param(name, value)] + w)[1..] == w;
      [Param(name, value)] + w
    else
      var rest := SetParam(q[1..], name, value);
      assert ([q[0]] + rest)[1..] == rest;
      [q[0]] + rest
  }

  /** With no entry of that name, `set` appends one. */
  lemma {:induction false} SetParamAppends(q: seq<Param>, name: string, value: string)
    requires IndexOfName(q, name).None?
    ensures SetParam(q, name, value) == q + [Param(name, value)]
  {
    if |q| > 0 {
      assert IndexOfName(q[1..], name).None?;
      SetParamAppends(q[1..], name, value);
      assert [q[0]] + (q[1..] + [Param(name, value)]) == ([q[0]] + q[1..]) + [Param(name, value)];
    }
  }

  /** With an entry of that name, `set` keeps every entry before the first one and overwrites it. */
  lemma {:induction false} SetParamInPlace(q: seq<Param>, name: string, value: string)
    requires IndexOfName(q, name).Some?
    ensures var k := IndexOfName(q, name).value; var r := SetParam(q, name, value);
      k < |r| && r[..k] == q[..k] && r[k] == Param(name, value)
  {
    if q[0].name != name {
      var i := IndexOfName(q[1..], name).value;
      SetParamInPlace(q[1..], name, value);
      var rest := SetParam(q[1..], name, value);
      ConsPrefix(q[0], rest, i);
      ConsPrefix(q[0], q[1..], i);
    }
  }

  lemma ConsPrefix(x: Param, s: seq<Param>, i: nat)
    requires i <= |s|
    ensures ([x] + s)[..i + 1] == [x] + s[..i]
    ensures ([x] + s)[i + 1..] == s[i..]
  {
  }

  /** After `set`, `get` returns the value set. */
  lemma {:induction false} SetThenGet(q: seq<Param>, name: string, value: string)
    ensures GetParam(SetParam(q, name, value), name) == Some(value)
  {
    if |q| > 0 && q[0].name != name {
      var rest := SetParam(q[1..], name, value);
      SetThenGet(q[1..], name, value);
      var r := [q[0]] + rest;
      assert r[1..] == rest;
      var i := IndexOfName(rest, name).value;
      assert IndexOfName(r, name) == Some(i + 1);
    }
  }

  /** Setting the same value twice is setting it once. */
  lemma {:induction false} SetParamIdempotent(q: seq<Param>, name: string, value: string)
    ensures SetParam(SetParam(q, name, value), name, value) == SetParam(q, name, value)
  {
    if |q| > 0 {
      if q[0].name == name {
        WithoutNamedNone(WithoutNamed(q[1..], name), name);
      } else {
        SetParamIdempotent(q[1..], name, value);
      }
    }
  }

  lemma {:induction false} WithoutNamedNone(q: seq<Param>, name: string)
    requires CountNamed(q, name) == 0
    ensures WithoutNamed(q, name) == q
  {
    if |q| > 0 {
      WithoutNamedNone(q[1..], name);
    }
  }

  /** Dropping one name keeps every entry of another name exactly as often as it occurs, and none of that name. */
  lemma {:induction false} WithoutNamedCounts(q: seq<Param>, name: string)
    ensures forall p :: multiset(WithoutNamed(q, name))[p] == if p.name == name then 0 else multiset(q)[p]
    decreases |q|
  {
    if |q| > 0 {
      assert q == [q[0]] + q[1..];
      WithoutNamedCounts(q[1..], name);
    }
  }

  /** Dropping one name works piece by piece, so the kept entries stay in their order. */
  lemma {:induction false} WithoutNamedAppend(a: seq<Param>, b: seq<Param>, name: string)
    ensures WithoutNamed(a + b, name) == WithoutNamed(a, name) + WithoutNamed(b, name)
    decreases |a|
  {
    if |a| > 0 {
      assert (a + b)[0] == a[0] && (a + b)[1..] == a[1..] + b;
      WithoutNamedAppend(a[1..], b, name);
    } else {
      assert a + b == b;
    }
  }

  /** The middleware: without a session, a 302 to `/` that records where the visitor was going. */
  function Middleware(session: bool, url: Url): (o: Outcome)
    ensures session ==> o == Next
    ensures !session ==> o.Redirect? && o.status == RedirectStatus
    ensures !session ==> o.location.pathname == "/" && o.location.origin == url.origin && o.location.hash == url.hash
    ensures !session ==> CountNamed(o.location.query, RedirectParam) == 1
    ensures !session ==> WithoutNamed(o.location.query, RedirectParam) == WithoutNamed(url.query, RedirectParam)
  {
    if session then Next
    else Redirect(url.(pathname := "/", query := SetParam(url.query, RedirectParam, url.pathname)), RedirectStatus)
  }

  /** The redirect records the original path as `redirectedFrom`, whatever value it had before. */
  lemma RedirectRecordsOrigin(url: Url)
    ensures GetParam(Middleware(false, url).location.query, RedirectParam) == Some(url.pathname)
  {
    SetThenGet(url.query, RedirectParam, url.pathname);
  }

  /** `matcher: ['/dashboards/:path*']`: `/dashboards` itself and every path below it. */
  predicate Matches(pathname: string) {
    pathname == "/dashboards" || StartsWith(pathname, "/dashboards/")
  }

  /** What a request meets: the middleware on matched paths, nothing elsewhere. */
  function Gate(session: bool, url: Url): (o: Outcome)
    ensures !Matches(url.pathname) ==> o == Next
    ensures o.Redirect? <==> Matches(url.pathname) && !session
  {
    if Matches(url.pathname) then Middleware(session, url) else Next
  }

  /** API routes are never covered by the gate; each has to check the session itself. */
  lemma ApiRoutesNotGated(session: bool, url: Url)
    requires StartsWith(url.pathname, "/api/")
    ensures Gate(session, url) == Next
  {
    assert url.pathname[1] == 'a';
  }

  /** The redirect target is not gated itself, so a visitor without a session is never redirected twice. */
  lemma NoRedirectLoop(url: Url)
    requires Matches(url.pathname)
    ensures Gate(false, url).Redirect? && Gate(false, Gate(false, url).location) == Next
  {
  }
}

=== FILE: store.dfy ===
/**
 * The shared in-memory key store: a module-level array of records with find-first lookup,
 * append, object-spread update, splice delete and a last-used stamp. The array is a value here;
 * every operation takes the current array and returns the next one with its result.
 * `Date.now()`, `Math.random()` and `new Date().toISOString()` are parameters.
 */
module ApiKeysStore {
  import opened Wrappers
  import opened JsText

  datatype KeyRecord = KeyRecord(id: string, name: string, key: string, createdAt: string, lastUsed: Option<string>)

  type Store = seq<KeyRecord>

  /** New store contents together with what the operation returns. */
  datatype Outcome<T> = Outcome(store: Store, result: T)

  /** The two records the store starts with. */
  const Seed: Store := [
    KeyRecord("1", "Development Key", "dk_dev_1234567890abcdef", "2024-01-15T10:30:00Z", Some("2024-01-20T14:22:00Z")),
    KeyRecord("2", "Production Key", "dk_prod_abcdef1234567890", "2024-01-10T09:15:00Z", None)
  ]

  /** Prefix of every key the store issues. */
  const KeyPrefix: string := "dk_"

  predicate HasId(s: Store, id: string) {
    exists j | 0 <= j < |s| :: s[j].id == id
  }

  /** No two records share an id. Nothing in the store enforces this; see the lemmas below. */
  predicate UniqueIds(s: Store) {
    forall i, j | 0 <= i < j < |s| :: s[i].id != s[j].id
  }

  /** `findIndex(key => key.id === id)`, with `None` for -1. */
  function FindIndex(s: Store, id: string): (r: Option<nat>)
    ensures r.Some? ==> r.value < |s| && s[r.value].id == id
    ensures r.Some? ==> forall j | 0 <= j < r.value :: s[j].id != id
    ensures r.None? <==> !HasId(s, id)
  {
    if |s| == 0 then None
    else if s[0].id == id then Some(0)
    else match FindIndex(s[1..], id)
      case None => assert forall j | 1 <= j < |s| :: s[j] == s[1..][j - 1]; None
      case Some(i) => assert s[1..][i] == s[i + 1]; Some(i + 1)
  }

  /** The index `findIndex` returns is pinned down by being a match with no match before it. */
  lemma FindIndexIs(s: Store, id: string, i: nat)
    requires i < |s| && s[i].id == id
    requires forall j | 0 <= j < i :: s[j].id != id
    ensures FindIndex(s, id) == Some(i)
  {
  }

  /** Searching a store with one record appended finds an old match first, else the new record. */
  lemma FindIndexAppend(s: Store, rec: KeyRecord, id: string)
    ensures FindIndex(s + [rec], id) ==
      if HasId(s, id) then FindIndex(s, id) else if rec.id == id then Some(|s|) else None
  {
    var t := s + [rec];
    assert forall j | 0 <= j < |s| :: t[j] == s[j];
    if HasId(s, id) {
      FindIndexIs(t, id, FindIndex(s, id).value);
    } else if rec.id == id {
      FindIndexIs(t, id, |s|);
    } else {
      assert !HasId(t, id);
    }
  }

  /** `getAll()`: a copy of the whole array; the store itself is not changed. */
  function GetAll(s: Store): (o: Outcome<seq<KeyRecord>>)
    ensures o.store == s
    ensures |o.result| == |s| && forall j | 0 <= j < |s| :: o.result[j] == s[j]
  {
    Outcome(s, s[..])
  }

  /** `getById(id)`: the first record carrying `id`, or `None` (JavaScript's `undefined`). */
  function GetById(s: Store, id: string): (r: Option<KeyRecord>)
    ensures r.Some? ==> r.value in s && r.value.id == id
    ensures r.Some? ==> exists i | 0 <= i < |s| :: s[i] == r.value && forall j | 0 <= j < i :: s[j].id != id
    ensures r.None? <==> !HasId(s, id)
  {
    match FindIndex(s, id)
    case None => None
    case Some(i) => Some(s[i])
  }

  /**
   * The key a new record gets: `'dk_'` followed by characters 2 to 14 of two base-36 renderings
   * of `Math.random()` (`random1`, `random2`, e.g. `"0.4fzyo82mvyrj"`).
   */
  function NewKey(random1: string, random2: string): (key: string)
    ensures StartsWith(key, KeyPrefix)
    ensures |key| <= |KeyPrefix| + 26
  {
    KeyPrefix + Substring(random1, 2, 15) + Substring(random2, 2, 15)
  }

  /**
   * `create(name)`: appends one record with a trimmed name, an issued `dk_` key, the creation
   * time and no last use, and returns it. `nowId` is `Date.now().toString()`, `now` the ISO time.
   */
  function Create(s: Store, name: string, nowId: string, random1: string, random2: string, now: string): (o: Outcome<KeyRecord>)
    ensures |o.store| == |s| + 1 && o.store[..|s|] == s
    ensures o.store[|s|] == o.result
    ensures o.result.id == nowId && o.result.createdAt == now && o.result.lastUsed.None?
    ensures o.result.name == Trim(name) && IsTrimmed(o.result.name)
    ensures StartsWith(o.result.key, KeyPrefix)
  {
    var rec := KeyRecord(nowId, Trim(name), NewKey(random1, random2), now, None);
    Outcome(s + [rec], rec)
  }

  /**
   * The `updates` argument of `update`: the properties it carries. Any property, `id` included,
   * may be present; an absent one is `None`.
   */
  datatype Patch = Patch(
    id: Option<string>, name: Option<string>, key: Option<string>,
    createdAt: Option<string>, lastUsed: Option<Option<string>>)

  const EmptyPatch := Patch(None, None, None, None, None)

  function Pick<T>(patched: Option<T>, current: T): T {
    match patched
    case Some(v) => v
    case None => current
  }

  /** `{ ...rec, ...updates }`: a property present in `updates` wins, every other keeps its value. */
  function Merge(rec: KeyRecord, p: Patch): KeyRecord {
    KeyRecord(Pick(p.id, rec.id), Pick(p.name, rec.name), Pick(p.key, rec.key),
              Pick(p.createdAt, rec.createdAt), Pick(p.lastUsed, rec.lastUsed))
  }

  /** Each field of a merge comes from the patch when the patch carries it and from the record otherwise. */
  lemma MergeFields(rec: KeyRecord, p: Patch)
    ensures Merge(rec, p).id == (if p.id.Some? then p.id.value else rec.id)
    ensures Merge(rec, p).name == (if p.name.Some? then p.name.value else rec.name)
    ensures Merge(rec, p).key == (if p.key.Some? then p.key.value else rec.key)
    ensures Merge(rec, p).createdAt == (if p.createdAt.Some? then p.createdAt.value else rec.createdAt)
    ensures Merge(rec, p).lastUsed == (if p.lastUsed.Some? then p.lastUsed.value else rec.lastUsed)
    ensures p == EmptyPatch ==> Merge(rec, p) == rec
    ensures Merge(Merge(rec, p), p) == Merge(rec, p)
  {
  }

  /**
   * `update(id, updates)`: merges `updates` into the first record with `id` and returns the merged
   * record; with no such record the store is unchanged and the result is `None` (`null`).
   */
  function Update(s: Store, id: string, p: Patch): (o: Outcome<Option<KeyRecord>>)
    ensures !HasId(s, id) ==> o.store == s && o.result.None?
    ensures HasId(s, id) ==> o.result.Some? && o.result.value == Merge(s[FindIndex(s, id).value], p)
    ensures |o.store| == |s|
    ensures forall j | 0 <= j < |s| && (FindIndex(s, id) != Some(j)) :: o.store[j] == s[j]
    ensures HasId(s, id) ==> o.store[FindIndex(s, id).value] == o.result.value
  {
    match FindIndex(s, id)
    case None => Outcome(s, None)
    case Some(i) =>
      var merged := Merge(s[i], p);
      Outcome(s[i := merged], Some(merged))
  }

  /**
   * `delete(id)`: splices out the first record with `id` and returns it; with no such record the
   * store is unchanged and the result is `None` (`null`).
   */
  function Delete(s: Store, id: string): (o: Outcome<Option<KeyRecord>>)
    ensures !HasId(s, id) ==> o.store == s && o.result.None?
    ensures HasId(s, id) ==> o.result.Some? && o.result.value.id == id && |o.store| == |s| - 1
    ensures HasId(s, id) ==> multiset(o.store) + multiset{o.result.value} == multiset(s)
    ensures HasId(s, id) ==> var i := FindIndex(s, id).value;
      && (forall j | 0 <= j < i :: o.store[j] == s[j])
      && (forall j | i <= j < |o.store| :: o.store[j] == s[j + 1])
  {
    match FindIndex(s, id)
    case None => Outcome(s, None)
    case Some(i) =>
      assert s == s[..i] + [s[i]] + s[i + 1..];
      Outcome(s[..i] + s[i + 1..], Some(s[i]))
  }

  /** `updateLastUsed(id)`: stamps `lastUsed` of the first record with `id`; an absent id changes nothing. */
  function UpdateLastUsed(s: Store, id: string, now: string): (s': Store)
    ensures !HasId(s, id) ==> s' == s
    ensures |s'| == |s|
    ensures forall j | 0 <= j < |s| && FindIndex(s, id) != Some(j) :: s'[j] == s[j]
    ensures HasId(s, id) ==> var i := FindIndex(s, id).value;
      s'[i] == s[i].(lastUsed := Some(now))
  {
    match FindIndex(s, id)
    case None => s
    case Some(i) => s[i := s[i].(lastUsed := Some(now))]
  }

  // ---------------------------------------------------------------------------------------------
  // Properties relating the operations

  /** The seed records have distinct ids. */
  lemma SeedUniqueIds()
    ensures UniqueIds(Seed)
    ensures GetById(Seed, "1") == Some(Seed[0]) && GetById(Seed, "2") == Some(Seed[1])
  {
  }

  /** With distinct ids, the record `getById` finds is the only one with that id. */
  lemma GetByIdUnique(s: Store, id: string, rec: KeyRecord)
    requires UniqueIds(s)
    ensures GetById(s, id) == Some(rec) <==> rec in s && rec.id == id
  {
    if rec in s && rec.id == id {
      var k :| 0 <= k < |s| && s[k] == rec;
      var i := FindIndex(s, id).value;
      assert i == k;
    }
  }

  /** A record just created is found by its id, provided the id was not already taken. */
  lemma CreateThenGet(s: Store, name: string, nowId: string, r1: string, r2: string, now: string)
    requires !HasId(s, nowId)
    ensures var o := Create(s, name, nowId, r1, r2, now);
      GetById(o.store, nowId) == Some(o.result)
  {
    var o := Create(s, name, nowId, r1, r2, now);
    FindIndexAppend(s, o.result, nowId);
  }

  /**
   * Two creations in the same millisecond share an id; `getById` then keeps returning the older
   * record and the new one cannot be reached by id.
   */
  lemma CreateShadowedById(s: Store, name: string, nowId: string, r1: string, r2: string, now: string)
    requires HasId(s, nowId)
    ensures var o := Create(s, name, nowId, r1, r2, now);
      GetById(o.store, nowId) == GetById(s, nowId)
  {
    var o := Create(s, name, nowId, r1, r2, now);
    FindIndexAppend(s, o.result, nowId);
  }

  /** Deleting the record just created restores the store (when its id was fresh). */
  lemma CreateThenDelete(s: Store, name: string, nowId: string, r1: string, r2: string, now: string)
    requires !HasId(s, nowId)
    ensures var o := Create(s, name, nowId, r1, r2, now);
      Delete(o.store, nowId) == Outcome(s, Some(o.result))
  {
    var o := Create(s, name, nowId, r1, r2, now);
    FindIndexAppend(s, o.result, nowId);
    assert o.store[..|s|] + o.store[|s| + 1..] == s;
  }

  /** Updating with no properties changes nothing but still reports the record. */
  lemma UpdateEmptyPatch(s: Store, id: string)
    ensures Update(s, id, EmptyPatch).store == s
    ensures Update(s, id, EmptyPatch).result == GetById(s, id)
  {
    if HasId(s, id) {
      var i := FindIndex(s, id).value;
      assert s[i := s[i]] == s;
    }
  }

  /** Repeating an update that leaves `id` in place changes nothing more. */
  lemma UpdateIdempotent(s: Store, id: string, p: Patch)
    requires p.id.None? || p.id == Some(id)
    ensures var o := Update(s, id, p); Update(o.store, id, p) == o
  {
    var o := Update(s, id, p);
    if HasId(s, id) {
      var i := FindIndex(s, id).value;
      assert o.store[i].id == id;
      assert forall j | 0 <= j < i :: o.store[j] == s[j];
      assert FindIndex(o.store, id) == Some(i);
      MergeFields(s[i], p);
      assert o.store[i := Merge(o.store[i], p)] == o.store;
    }
  }

  /** After an update that leaves `id` in place, `getById` sees the merged record. */
  lemma UpdateThenGet(s: Store, id: string, p: Patch)
    requires HasId(s, id)
    requires p.id.None? || p.id == Some(id)
    ensures GetById(Update(s, id, p).store, id) == Update(s, id, p).result
  {
    var o := Update(s, id, p);
    var i := FindIndex(s, id).value;
    assert forall j | 0 <= j < i :: o.store[j] == s[j];
    assert o.store[i].id == id;
    assert FindIndex(o.store, id) == Some(i);
  }

  /** `updateLastUsed` is `update` with a patch carrying only `lastUsed`, minus the returned record. */
  lemma UpdateLastUsedIsUpdate(s: Store, id: string, now: string)
    ensures UpdateLastUsed(s, id, now) == Update(s, id, EmptyPatch.(lastUsed := Some(Some(now)))).store
  {
  }

  /** After deleting the only record with an id, nothing with that id is left. */
  lemma DeleteThenGet(s: Store, id: string)
    requires UniqueIds(s)
    ensures GetById(Delete(s, id).store, id).None?
    ensures UniqueIds(Delete(s, id).store)
  {
    if HasId(s, id) {
      var o := Delete(s, id);
      var i := FindIndex(s, id).value;
      forall j | 0 <= j < |o.store| ensures o.store[j].id != id {
        if j < i { assert o.store[j] == s[j]; } else { assert o.store[j] == s[j + 1]; }
      }
      forall a, b | 0 <= a < b < |o.store| ensures o.store[a].id != o.store[b].id {
        var a' := if a < i then a else a + 1;
        var b' := if b < i then b else b + 1;
        assert o.store[a] == s[a'] && o.store[b] == s[b'];
      }
    }
  }

  /** Creating with a fresh id, stamping and id-preserving updates keep ids distinct. */
  lemma UniqueIdsPreserved(s: Store, name: string, nowId: string, r1: string, r2: string, now: string, id: string, p: Patch)
    requires UniqueIds(s)
    requires p.id.None?
    ensures !HasId(s, nowId) ==> UniqueIds(Create(s, name, nowId, r1, r2, now).store)
    ensures UniqueIds(UpdateLastUsed(s, id, now))
    ensures UniqueIds(Update(s, id, p).store)
  {
    if !HasId(s, nowId) {
      AppendFreshUnique(s, Create(s, name, nowId, r1, r2, now).result);
    }
    var s1 := UpdateLastUsed(s, id, now);
    assert forall j | 0 <= j < |s| :: s1[j].id == s[j].id;
    SameIdsUnique(s, s1);
    var s2 := Update(s, id, p).store;
    assert forall j | 0 <= j < |s| :: s2[j].id == s[j].id;
    SameIdsUnique(s, s2);
  }

  lemma AppendFreshUnique(s: Store, rec: KeyRecord)
    requires UniqueIds(s) && !HasId(s, rec.id)
    ensures UniqueIds(s + [rec])
  {
    var t := s + [rec];
    forall i, j | 0 <= i < j < |t| ensures t[i].id != t[j].id {
      assert t[i] == s[i];
      if j < |s| { assert t[j] == s[j]; }
    }
  }

  /** Rewriting records without touching their ids keeps the ids distinct. */
  lemma SameIdsUnique(s: Store, s': Store)
    requires UniqueIds(s) && |s'| == |s|
    requires forall j | 0 <= j < |s| :: s'[j].id == s[j].id
    ensures UniqueIds(s')
  {
  }
}

=== FILE: summarizer.dfy ===
/**
 * `POST /api/github-summarizer` and its `getReadmeContent` helper. The handler checks, in order:
 * a session (401), an `x-api-key` header (400), a row holding that key for the session user (403),
 * a string `repoUrl` in the body (400). The README fetch and the summarizer are parameters;
 * what is modelled of `getReadmeContent` is the repository-reference parsing, the request URL,
 * and the error messages derived from the response status.
 */
module SummarizerRoute {
  import opened Wrappers
  import opened JsText
  import opened Http
  import opened KeyTable

  datatype SummarizerBody = SummarizerError(error: string) | Summary(summary: Json)

  const InvalidKey: string := "Invalid or unauthorized API key"
  const MissingRepoUrl: string := "Missing \"repoUrl\" field."
  const CouldNotParse: string := "Could not parse GitHub URL"
  const InvalidFormat: string := "Invalid repo format. Expected \"owner/repo\""
  const ReadmeMissing: string := "README.md not found in this repository"
  const ApiErrorPrefix: string := "GitHub API error: "
  const FailedPrefix: string := "Failed to fetch README: "

  /** The literal text `github\.com\/` of the pattern. */
  const HostSlash: string := "github.com/"

  datatype RepoRef = RepoRef(owner: string, repo: string)

  /** What `[^\/]+` matches, and what `Split` needs of each part to give it back. */
  predicate SlashFree(s: string) {
    '/' !in s
  }

  /** How much of `s` a greedy `[^\/]+` can take: the longest slash-free prefix. */
  function SlashFreeRun(s: string): (n: nat)
    ensures n <= |s|
    ensures forall i | 0 <= i < n :: s[i] != '/'
    ensures n < |s| ==> s[n] == '/'
  {
    if |s| == 0 || s[0] == '/' then 0 else 1 + SlashFreeRun(s[1..])
  }

  /** The conditions above pin the run down. */
  lemma SlashFreeRunIs(s: string, k: nat)
    requires k <= |s|
    requires forall i | 0 <= i < k :: s[i] != '/'
    requires k < |s| ==> s[k] == '/'
    ensures SlashFreeRun(s) == k
  {
  }

  /**
   * The pattern `host([^\/]+)\/([^\/]+)` tried at index `p`: the two captured groups, if it
   * matches there. The route's pattern is the one with `host` = `github.com/`.
   */
  function MatchWith(host: string, s: string, p: nat): Option<RepoRef>
    requires p <= |s|
  {
    if !StartsWith(s[p..], host) then None
    else
      var rest := s[p + |host|..];
      var a := SlashFreeRun(rest);
      if a == 0 || a == |rest| then None
      else
        var tail := rest[a + 1..];
        var b := SlashFreeRun(tail);
        if b == 0 then None else Some(RepoRef(rest[..a], tail[..b]))
  }

  /** `/github\.com\/([^\/]+)\/([^\/]+)/` tried at index `p`. */
  function MatchAt(s: string, p: nat): Option<RepoRef>
    requires p <= |s|
  {
    MatchWith(HostSlash, s, p)
  }

  /**
   * What it means, independently of how `MatchWith` scans, for the pattern to match at `p` with
   * groups `owner` and `repo`: the text `host owner/repo` starts there, both groups are
   * non-empty and slash-free, and the greedy second group stops only at a slash or the end.
   */
  predicate GroupsWith(host: string, s: string, p: int, owner: string, repo: string) {
    && 0 <= p <= |s|
    && owner != "" && repo != "" && SlashFree(owner) && SlashFree(repo)
    && StartsWith(s[p..], host + owner + "/" + repo)
    && (p + |host| + 1 + |owner| + |repo| == |s| || s[p + |host| + 1 + |owner| + |repo|] == '/')
  }

  predicate GroupsAt(s: string, p: int, owner: string, repo: string) {
    GroupsWith(HostSlash, s, p, owner, repo)
  }

  lemma Reassociate(sp: string, host: string, owner: string, repo: string, rest: string, tail: string, x: string)
    requires sp == host + rest && rest == owner + "/" + tail && tail == repo + x
    ensures sp == host + owner + "/" + repo + x
  {
  }

  lemma AroundSlash(rest: string, a: nat)
    requires a < |rest| && rest[a] == '/'
    ensures rest == rest[..a] + "/" + rest[a + 1..]
  {
    assert rest == rest[..a] + [rest[a]] + rest[a + 1..];
  }

  lemma Slices(t: string, k: nat)
    requires k <= |t|
    ensures t == t[..k] + t[k..]
  {
  }

  /** Reading `lit + x` from the front: the prefix, and what follows the first pieces. */
  lemma ReadBack(sp: string, host: string, owner: string, repo: string, x: string)
    requires sp == host + owner + "/" + repo + x
    ensures sp[..|host|] == host
    ensures sp[|host|..] == owner + "/" + (repo + x)
    ensures sp[..|host| + 1 + |owner| + |repo|] == host + owner + "/" + repo
    ensures x != [] ==> sp[|host| + 1 + |owner| + |repo|] == x[0]
  {
    assert sp == (host + owner + "/" + repo) + x;
  }

  lemma OwnerPart(rest: string, owner: string, y: string)
    requires rest == owner + "/" + y
    ensures forall i | 0 <= i < |owner| :: rest[i] == owner[i]
    ensures rest[|owner|] == '/'
    ensures rest[..|owner|] == owner && rest[|owner| + 1..] == y
  {
  }

  lemma RepoPart(tail: string, repo: string, x: string)
    requires tail == repo + x
    ensures forall i | 0 <= i < |repo| :: tail[i] == repo[i]
    ensures tail[..|repo|] == repo
    ensures |repo| < |tail| ==> tail[|repo|] == x[0]
  {
  }

  /** Text that reads `host owner/repo x` from `p` on, with a group-shaped owner and repo, matches there. */
  lemma GroupsFromPieces(host: string, s: string, p: nat, owner: string, repo: string, x: string)
    requires p <= |s| && s[p..] == host + owner + "/" + repo + x
    requires owner != "" && repo != "" && SlashFree(owner) && SlashFree(repo)
    requires x == "" || x[0] == '/'
    ensures GroupsWith(host, s, p, owner, repo)
  {
    var e := |host| + 1 + |owner| + |repo|;
    ReadBack(s[p..], host, owner, repo, x);
    if x != "" {
      assert s[p + e] == s[p..][e];
    }
  }

  /** What follows the host, cut where the greedy groups stop. */
  lemma GroupsOfRest(rest: string)
    requires 0 < SlashFreeRun(rest) < |rest|
    requires SlashFreeRun(rest[SlashFreeRun(rest) + 1..]) > 0
    ensures var a := SlashFreeRun(rest); var tail := rest[a + 1..]; var b := SlashFreeRun(tail);
      && rest == rest[..a] + "/" + (tail[..b] + tail[b..])
      && SlashFree(rest[..a]) && SlashFree(tail[..b])
      && (tail[b..] == "" || tail[b..][0] == '/')
  {
    var a := SlashFreeRun(rest);
    var tail := rest[a + 1..];
    var b := SlashFreeRun(tail);
    AroundSlash(rest, a);
    Slices(tail, b);
  }

  /** Whatever `MatchWith` returns is a match in the sense of `GroupsWith`. */
  lemma MatchWithSound(host: string, s: string, p: nat)
    requires p <= |s| && MatchWith(host, s, p).Some?
    ensures GroupsWith(host, s, p, MatchWith(host, s, p).value.owner, MatchWith(host, s, p).value.repo)
  {
    var rest := s[p + |host|..];
    var a := SlashFreeRun(rest);
    var tail := rest[a + 1..];
    var b := SlashFreeRun(tail);
    GroupsOfRest(rest);
    Slices(s[p..], |host|);
    assert s[p..] == host + rest;
    Reassociate(s[p..], host, rest[..a], tail[..b], rest, tail[..b] + tail[b..], tail[b..]);
    GroupsFromPieces(host, s, p, rest[..a], tail[..b], tail[b..]);
  }

  /** Every match in the sense of `GroupsWith` is the one `MatchWith` returns. */
  lemma MatchWithComplete(host: string, s: string, p: nat, owner: string, repo: string)
    requires GroupsWith(host, s, p, owner, repo)
    ensures MatchWith(host, s, p) == Some(RepoRef(owner, repo))
  {
    var h := |host|;
    var sp := s[p..];
    var lit := host + owner + "/" + repo;
    var after := sp[|lit|..];
    Slices(sp, |lit|);
    ReadBack(sp, host, owner, repo, after);
    var rest := s[p + h..];
    assert rest == sp[h..];
    OwnerPart(rest, owner, repo + after);
    SlashFreeRunIs(rest, |owner|);
    var tail := rest[|owner| + 1..];
    RepoPart(tail, repo, after);
    SlashFreeRunIs(tail, |repo|);
  }

  /** `MatchAt` computes exactly the match `GroupsAt` describes. */
  lemma MatchAtIff(s: string, p: nat, owner: string, repo: string)
    requires p <= |s|
    ensures MatchAt(s, p) == Some(RepoRef(owner, repo)) <==> GroupsAt(s, p, owner, repo)
  {
    if MatchAt(s, p) == Some(RepoRef(owner, repo)) {
      MatchWithSound(HostSlash, s, p);
    }
    if GroupsAt(s, p, owner, repo) {
      MatchWithComplete(HostSlash, s, p, owner, repo);
    }
  }

  /** A match of the pattern: where it starts and its two groups. */
  datatype GitHubMatch = GitHubMatch(pos: nat, ref: RepoRef)

  /** `input.match(...)` without the global flag: the leftmost index from `p` on where the pattern matches. */
  function Search(s: string, p: nat): (m: Option<GitHubMatch>)
    requires p <= |s|
    ensures m.Some? ==> p <= m.value.pos <= |s| && MatchAt(s, m.value.pos) == Some(m.value.ref)
    ensures m.Some? ==> forall q | p <= q < m.value.pos :: MatchAt(s, q).None?
    ensures m.None? ==> forall q | p <= q <= |s| :: MatchAt(s, q).None?
    decreases |s| - p
  {
    var here := MatchAt(s, p);
    if here.Some? then Some(GitHubMatch(p, here.value))
    else if p == |s| then None
    else
      var later := Search(s, p + 1);
      assert later.Some? ==> forall q | p <= q < later.value.pos :: MatchAt(s, q).None? by {
        if later.Some? {
          assert forall q | p + 1 <= q < later.value.pos :: MatchAt(s, q).None?;
        }
      }
      later
  }

  /**
   * The owner/repo part of `getReadmeContent`: input containing `github.com` goes through the
   * pattern; any other input must split on `/` into exactly two (possibly empty) parts.
   */
  function ParseRepoRef(input: string): (r: Result<RepoRef, string>)
    ensures r.Ok? ==> SlashFree(r.value.owner) && SlashFree(r.value.repo)
    ensures r.Err? ==> r.error == (if Includes(input, "github.com") then CouldNotParse else InvalidFormat)
    ensures Includes(input, "github.com") && r.Ok? ==> r.value.owner != "" && r.value.repo != ""
    ensures !Includes(input, "github.com") && r.Ok? ==> input == r.value.owner + "/" + r.value.repo
  {
    if Includes(input, "github.com") then
      match Search(input, 0)
      case None => Err(CouldNotParse)
      case Some(m) =>
        assert GroupsAt(input, m.pos, m.ref.owner, m.ref.repo) by { MatchAtIff(input, m.pos, m.ref.owner, m.ref.repo); }
        Ok(m.ref)
    else
      var parts := Split(input, '/');
      if |parts| != 2 then Err(InvalidFormat)
      else
        JoinSplit(input, '/');
        assert Join(parts[1..], '/') == parts[1];
        Ok(RepoRef(parts[0], parts[1]))
  }

  /** A URL-form input yields the groups of the leftmost match of the pattern; no match at all is an error. */
  lemma ParseGitHubIsLeftmostMatch(input: string)
    requires Includes(input, "github.com")
    ensures ParseRepoRef(input).Ok? ==>
      var ref := ParseRepoRef(input).value;
      exists p :: GroupsAt(input, p, ref.owner, ref.repo) && forall q, o, r | q < p :: !GroupsAt(input, q, o, r)
    ensures ParseRepoRef(input).Err? ==> forall p, o, r :: !GroupsAt(input, p, o, r)
  {
    match Search(input, 0)
    case None =>
      forall p, o, r | GroupsAt(input, p, o, r) ensures false {
        MatchAtIff(input, p, o, r);
      }
    case Some(m) =>
      MatchAtIff(input, m.pos, m.ref.owner, m.ref.repo);
      forall q, o, r | q < m.pos && GroupsAt(input, q, o, r) ensures false {
        MatchAtIff(input, q, o, r);
      }
  }

  /** `host owner/repo path` matches at its start, with the two groups. */
  lemma GroupsOfLiteral(host: string, owner: string, repo: string, path: string)
    requires owner != "" && repo != "" && SlashFree(owner) && SlashFree(repo)
    requires path == "" || path[0] == '/'
    ensures GroupsWith(host, host + owner + "/" + repo + path, 0, owner, repo)
  {
    var t := host + owner + "/" + repo + path;
    ReadBack(t, host, owner, repo, path);
    assert t[0..] == t;
  }

  /** A match in `t` at 0 is a match in `pre + t` at `|pre|`. */
  lemma GroupsShift(host: string, pre: string, t: string, owner: string, repo: string)
    requires GroupsWith(host, t, 0, owner, repo)
    ensures GroupsWith(host, pre + t, |pre|, owner, repo)
  {
    assert (pre + t)[..|pre|] == pre && (pre + t)[|pre|..] == t;
    var e := |host| + 1 + |owner| + |repo|;
    if e < |t| {
      assert (pre + t)[|pre| + e] == t[e];
    }
  }

  lemma HostOccurs(pre: string, t: string)
    requires |pre| == 8 && StartsWith(t, HostSlash)
    ensures OccursAt(pre + t, "github.com", 8)
  {
    assert (pre + t)[8..18] == t[..10];
    assert t[..10] == t[..11][..10];
  }

  /** No index of `https://` starts a match: none of its characters is a `g`. */
  lemma NoMatchInScheme(t: string)
    ensures forall q | 0 <= q < 8 :: MatchAt("https://" + t, q).None?
  {
    var input := "https://" + t;
    forall q | 0 <= q < 8 ensures MatchAt(input, q).None? {
      assert input[q..][0] == input[q] == "https://"[q];
    }
  }

  /** Parsing a `github.com` input yields the groups of the first index where the pattern matches. */
  lemma ParseAtFirstMatch(input: string, p: nat, owner: string, repo: string)
    requires Includes(input, "github.com") && GroupsAt(input, p, owner, repo)
    requires forall q | 0 <= q < p :: MatchAt(input, q).None?
    ensures ParseRepoRef(input) == Ok(RepoRef(owner, repo))
  {
    MatchAtIff(input, p, owner, repo);
    assert Search(input, 0) == Some(GitHubMatch(p, RepoRef(owner, repo)));
  }

  lemma UrlShape(owner: string, repo: string, path: string)
    ensures "https://github.com/" + owner + "/" + repo + path == "https://" + (HostSlash + owner + "/" + repo + path)
  {
    assert "https://github.com/" == "https://" + HostSlash;
    assert ("https://" + HostSlash) + owner + "/" + repo + path == "https://" + (HostSlash + owner + "/" + repo + path);
  }

  /** `https://github.com/owner/repo`, optionally followed by a further path, parses to (owner, repo). */
  lemma ParseGitHubUrl(owner: string, repo: string, path: string)
    requires owner != "" && repo != "" && SlashFree(owner) && SlashFree(repo)
    requires path == "" || path[0] == '/'
    ensures ParseRepoRef("https://github.com/" + owner + "/" + repo + path) == Ok(RepoRef(owner, repo))
  {
    var t := HostSlash + owner + "/" + repo + path;
    UrlShape(owner, repo, path);
    GroupsOfLiteral(HostSlash, owner, repo, path);
    GroupsShift(HostSlash, "https://", t, owner, repo);
    HostOccurs("https://", t);
    NoMatchInScheme(t);
    ParseAtFirstMatch("https://" + t, 8, owner, repo);
  }

  /** `owner/repo` without `github.com` in it parses to (owner, repo), empty parts included. */
  lemma ParseShortForm(owner: string, repo: string)
    requires SlashFree(owner) && SlashFree(repo)
    requires !Includes(owner + "/" + repo, "github.com")
    ensures ParseRepoRef(owner + "/" + repo) == Ok(RepoRef(owner, repo))
  {
    assert '/' !in owner && '/' !in repo;
    SplitTwo(owner, repo, '/');
  }

  /** `repo.replace(/\.git$/, '')`: one `.git` removed from the very end, if it is there. */
  function StripGitSuffix(repo: string): (r: string)
    ensures EndsWith(repo, ".git") ==> r + ".git" == repo
    ensures !EndsWith(repo, ".git") ==> r == repo
  {
    if EndsWith(repo, ".git") then repo[..|repo| - 4] else repo
  }

  /** Stripping undoes appending `.git`, once: `x.git.git` becomes `x.git`; slash-freedom is kept. */
  lemma StripGitSuffixInverse(x: string)
    ensures StripGitSuffix(x + ".git") == x
    ensures StripGitSuffix(x + ".git" + ".git") == x + ".git"
    ensures SlashFree(x) ==> SlashFree(StripGitSuffix(x))
  {
    assert (x + ".git")[..|x|] == x;
    assert (x + ".git" + ".git")[..|x| + 4] == x + ".git";
  }

  const ApiBase: string := "https://api.github.com/repos/"

  /** `https://api.github.com/repos/${owner}/${cleanRepo}/readme`. */
  function ReadmeUrl(ref: RepoRef): (url: string)
    ensures StartsWith(url, ApiBase) && EndsWith(url, "/readme")
  {
    ApiBase + ref.owner + "/" + StripGitSuffix(ref.repo) + "/readme"
  }

  /**
   * For a parsed reference, splitting the URL text after the API base on `/` gives exactly
   * owner, clean repo and `readme`. This is a fact about the string; how `fetch` resolves
   * it as a URL is not part of this model.
   */
  lemma ReadmeUrlSegments(ref: RepoRef)
    requires SlashFree(ref.owner) && SlashFree(ref.repo)
    ensures var url := ReadmeUrl(ref);
      url[|ApiBase|..] == ref.owner + "/" + StripGitSuffix(ref.repo) + "/readme"
      && Split(url[|ApiBase|..], '/') == [ref.owner, StripGitSuffix(ref.repo), "readme"]
  {
    var clean := StripGitSuffix(ref.repo);
    assert SlashFree(clean) by { StripGitSuffixInverse(ref.repo); }
    var parts := [ref.owner, clean, "readme"];
    assert Join(parts[2..], '/') == "readme";
    assert Join(parts[1..], '/') == clean + "/" + "readme";
    var rel := ref.owner + "/" + clean + "/readme";
    assert Join(parts, '/') == rel;
    assert ReadmeUrl(ref) == ApiBase + rel;
    SplitJoin(parts, '/');
  }

  /** `response.ok`. */
  predicate IsOk(status: nat) {
    200 <= status <= 299
  }

  /** The error thrown for a non-OK status. */
  function StatusError(status: nat): (m: string)
    ensures status == 404 ==> m == ReadmeMissing
    ensures status != 404 ==> StartsWith(m, ApiErrorPrefix) && m[|ApiErrorPrefix|..] == NatToDecimal(status)
  {
    if status == 404 then ReadmeMissing else ApiErrorPrefix + NatToDecimal(status)
  }

  /** The status can be read back from its message: different statuses give different messages. */
  lemma StatusErrorInjective(s1: nat, s2: nat)
    requires StatusError(s1) == StatusError(s2)
    ensures s1 == s2
  {
    if s1 != 404 && s2 != 404 {
      DecimalInjective(s1, s2);
    }
  }

  /** The reply of `fetch(url)`: a status with its text, or a failure to reach the server. */
  datatype FetchReply = Reply(status: nat, text: string) | NetworkError(message: string)

  /**
   * `getReadmeContent(input)`: parse, fetch the README URL, and return its text on an OK status;
   * every failure, whatever its origin, is rethrown with the `Failed to fetch README: ` prefix.
   */
  function GetReadmeContent(input: string, fetch: string -> FetchReply): (r: Result<string, string>)
    ensures r.Err? ==> StartsWith(r.error, FailedPrefix)
    ensures r.Ok? <==>
      (ParseRepoRef(input).Ok? && fetch(ReadmeUrl(ParseRepoRef(input).value)).Reply?
       && IsOk(fetch(ReadmeUrl(ParseRepoRef(input).value)).status))
    ensures r.Ok? ==> r.value == fetch(ReadmeUrl(ParseRepoRef(input).value)).text
    ensures ParseRepoRef(input).Err? ==> r == Err(FailedPrefix + ParseRepoRef(input).error)
    ensures ParseRepoRef(input).Ok? ==>
      var reply := fetch(ReadmeUrl(ParseRepoRef(input).value));
      && (reply.NetworkError? ==> r == Err(FailedPrefix + reply.message))
      && (reply.Reply? && reply.status == 404 ==> r == Err(FailedPrefix + ReadmeMissing))
      && (reply.Reply? && !IsOk(reply.status) ==> r == Err(FailedPrefix + StatusError(reply.status)))
  {
    match ParseRepoRef(input)
    case Err(message) => Err(FailedPrefix + message)
    case Ok(ref) =>
      match fetch(ReadmeUrl(ref))
      case NetworkError(message) => Err(FailedPrefix + message)
      case Reply(status, text) =>
        if IsOk(status) then Ok(text) else Err(FailedPrefix + StatusError(status))
  }

  /** `!apiKey` negated for `request.headers.get('x-api-key')`: a present, non-empty header. */
  function KeyHeader(header: Option<string>): (k: Option<string>)
    ensures k.Some? <==> header.Some? && header.value != ""
    ensures k.Some? ==> k == header
  {
    if header.Some? && header.value != "" then header else None
  }

  /** `.eq('key', apiKey).eq('user_id', user).single()` succeeds: exactly one row has this key and owner. */
  predicate KeyAccepted(t: Table, key: string, user: UserId, failure: Option<string>)
    ensures KeyAccepted(t, key, user, failure) <==> failure.None? && |WithKeyOwnedBy(t, key, user)| == 1
  {
    Single(WithKeyOwnedBy(t, key, user), failure).Found?
  }

  /** Every check before the README fetch passes: session, header, key row for that user, string `repoUrl`. */
  predicate ChecksPass(session: Option<UserId>, header: Option<string>, t: Table, failure: Option<string>, body: RequestBody) {
    && session.Some? && KeyHeader(header).Some?
    && KeyAccepted(t, header.value, session.value, failure)
    && body.Object? && RequiredString(Field(body.fields, "repoUrl")).Some?
  }

  /** The handler. */
  function Summarize(session: Option<UserId>, header: Option<string>, t: Table, failure: Option<string>,
                     body: RequestBody, fetch: string -> FetchReply, summarize: string -> Result<Json, string>): (r: Response<SummarizerBody>)
    ensures session.None? ==> r == Response(Unauthorized, SummarizerError(NotAuthenticated))
    ensures session.Some? && KeyHeader(header).None? ==> r == Response(BadRequest, SummarizerError(KeyRequired))
    ensures session.Some? && KeyHeader(header).Some? && !KeyAccepted(t, header.value, session.value, failure) ==>
      r == Response(Forbidden, SummarizerError(InvalidKey))
    ensures session.Some? && KeyHeader(header).Some? && KeyAccepted(t, header.value, session.value, failure) ==>
      (&& (body.Unparsable? ==> r == Response(ServerError, SummarizerError(body.message)))
       && (body.Object? && RequiredString(Field(body.fields, "repoUrl")).None? ==> r == Response(BadRequest, SummarizerError(MissingRepoUrl))))
    ensures ChecksPass(session, header, t, failure, body) ==>
      var readme := GetReadmeContent(RequiredString(Field(body.fields, "repoUrl")).value, fetch);
      && (readme.Err? ==> r == Response(ServerError, SummarizerError(readme.error)))
      && (readme.Ok? && summarize(readme.value).Err? ==> r == Response(ServerError, SummarizerError(summarize(readme.value).error)))
      && (readme.Ok? && summarize(readme.value).Ok? ==> r == Response(OK, Summary(summarize(readme.value).value)))
    ensures r.status == OK ==>
      (&& ChecksPass(session, header, t, failure, body)
       && failure.None? && |WithKeyOwnedBy(t, header.value, session.value)| == 1
       && GetReadmeContent(RequiredString(Field(body.fields, "repoUrl")).value, fetch).Ok?
       && summarize(GetReadmeContent(RequiredString(Field(body.fields, "repoUrl")).value, fetch).value).Ok?
       && r.body == Summary(summarize(GetReadmeContent(RequiredString(Field(body.fields, "repoUrl")).value, fetch).value).value))
    ensures r.status in {OK, BadRequest, Unauthorized, Forbidden, ServerError}
  {
    match session
    case None => Response(Unauthorized, SummarizerError(NotAuthenticated))
    case Some(user) =>
      match KeyHeader(header)
      case None => Response(BadRequest, SummarizerError(KeyRequired))
      case Some(key) =>
        if !KeyAccepted(t, key, user, failure) then Response(Forbidden, SummarizerError(InvalidKey))
        else match body
          case Unparsable(message) => Response(ServerError, SummarizerError(message))
          case Object(fields) =>
            match RequiredString(Field(fields, "repoUrl"))
            case None => Response(BadRequest, SummarizerError(MissingRepoUrl))
            case Some(repoUrl) =>
              match GetReadmeContent(repoUrl, fetch)
              case Err(message) => Response(ServerError, SummarizerError(message))
              case Ok(readme) =>
                match summarize(readme)
                case Err(message) => Response(ServerError, SummarizerError(message))
                case Ok(summary) => Response(OK, Summary(summary))
  }

  /** A store failure during the key lookup is reported as a 403, not as a 500. */
  lemma LookupFailureIsForbidden(user: UserId, key: string, t: Table, message: string, body: RequestBody,
                                 fetch: string -> FetchReply, summarize: string -> Result<Json, string>)
    requires key != ""
    ensures Summarize(Some(user), Some(key), t, Some(message), body, fetch, summarize) == Response(Forbidden, SummarizerError(InvalidKey))
  {
  }

  /** The session is checked first: without one, nothing else the request carries matters. */
  lemma SessionCheckedFirst(h1: Option<string>, h2: Option<string>, t1: Table, t2: Table, f1: Option<string>, f2: Option<string>,
                            b1: RequestBody, b2: RequestBody, fetch1: string -> FetchReply, fetch2: string -> FetchReply,
                            sum1: string -> Result<Json, string>, sum2: string -> Result<Json, string>)
    ensures Summarize(None, h1, t1, f1, b1, fetch1, sum1) == Summarize(None, h2, t2, f2, b2, fetch2, sum2)
  {
  }
}

=== FILE: validatekey.dfy ===
/**
 * `POST /api/validate-key`: the owner-blind check a machine caller makes with nothing but a key.
 * No session is consulted; the lookup filters on the key alone and selects only the row id.
 */
module ValidateKeyRoute {
  import opened Wrappers
  import opened Http
  import opened KeyTable

  /** `{ valid }` or `{ valid, error }`: no field of a matching row ever appears. */
  datatype ValidityBody = Validity(valid: bool, error: Option<string>)

  /**
   * The decision over the request's `key` field: a missing, empty or non-string key is a 400 and
   * `lookup` is never asked; otherwise PGRST116 is a plain `valid: false` and any other store
   * error is a 500.
   */
  function Decide(key: Option<Json>, lookup: string -> Lookup): (r: Response<ValidityBody>)
    ensures RequiredString(key).None? ==> r == Response(BadRequest, Validity(false, Some(KeyRequired)))
    ensures RequiredString(key).Some? ==> (r.body.valid <==> lookup(RequiredString(key).value).Found?)
    ensures RequiredString(key).Some? && lookup(RequiredString(key).value).OtherError? ==>
      r == Response(ServerError, Validity(false, Some(lookup(RequiredString(key).value).message)))
    ensures RequiredString(key).Some? && !lookup(RequiredString(key).value).OtherError? ==>
      r.status == OK && r.body.error.None?
  {
    match RequiredString(key)
    case None => Response(BadRequest, Validity(false, Some(KeyRequired)))
    case Some(k) =>
      match lookup(k)
      case OtherError(message) => Response(ServerError, Validity(false, Some(message)))
      case NotFound => Response(OK, Validity(false, None))
      case Found(_) => Response(OK, Validity(true, None))
  }

  /** Only the kind of lookup answer, and an error's message, reach the response; a found row's id does not. */
  lemma DecideByVerdict(key: Option<Json>, l1: string -> Lookup, l2: string -> Lookup)
    requires RequiredString(key).Some? ==> SameVerdict(l1(RequiredString(key).value), l2(RequiredString(key).value))
    ensures Decide(key, l1) == Decide(key, l2)
  {
  }

  /** `.from('api_keys').select('id').eq('key', key).single()`. */
  function LookupByKey(t: Table, failure: Option<string>): (lookup: string -> Lookup)
    ensures forall k :: lookup(k).Found? <==> failure.None? && |WithKey(t, k)| == 1
    ensures forall k :: lookup(k).OtherError? <==> failure.Some?
  {
    k => Single(WithKey(t, k), failure)
  }

  /** The handler: an unparsable body is a 500; otherwise the decision over the table lookup. */
  function Validate(body: RequestBody, t: Table, failure: Option<string>): (r: Response<ValidityBody>)
    ensures body.Unparsable? ==> r == Response(ServerError, Validity(false, Some(body.message)))
    ensures r.body.valid ==> r.status == OK && r.body.error.None?
    ensures r.status in {OK, BadRequest, ServerError}
    ensures r.body.valid <==>
      (&& body.Object?
       && RequiredString(Field(body.fields, "key")).Some?
       && failure.None?
       && |WithKey(t, RequiredString(Field(body.fields, "key")).value)| == 1)
  {
    match body
    case Unparsable(message) => Response(ServerError, Validity(false, Some(message)))
    case Object(fields) => Decide(Field(fields, "key"), LookupByKey(t, failure))
  }

  /** A well-formed request with the store reachable: a 200 whose verdict is "exactly one row holds the key". */
  lemma ValidateWellFormed(k: string, t: Table)
    requires k != ""
    ensures Validate(Object(map["key" := JStr(k)]), t, None) == Response(OK, Validity(|WithKey(t, k)| == 1, None))
  {
    assert Field(map["key" := JStr(k)], "key") == Some(JStr(k));
  }

  /** The request shape is decided before any lookup: a bad key gives the same 400 whatever the table holds. */
  lemma ShapeCheckedBeforeLookup(fields: map<string, Json>, t1: Table, t2: Table, f1: Option<string>, f2: Option<string>)
    requires RequiredString(Field(fields, "key")).None?
    ensures Validate(Object(fields), t1, f1) == Validate(Object(fields), t2, f2)
    ensures Validate(Object(fields), t1, f1).status == BadRequest
  {
  }

  /**
   * Owner-blindness: the answer depends on the key column alone, so reassigning rows to other
   * owners, or changing any other field, never changes it.
   */
  lemma OwnerBlind(body: RequestBody, t1: Table, t2: Table, failure: Option<string>)
    requires Keys(t1) == Keys(t2)
    ensures Validate(body, t1, failure) == Validate(body, t2, failure)
  {
    if body.Object? {
      var k := RequiredString(Field(body.fields, "key"));
      if k.Some? {
        WithKeyCountByKeys(t1, t2, k.value);
        SingleVerdictByCount(WithKey(t1, k.value), WithKey(t2, k.value), failure);
      }
      DecideByVerdict(Field(body.fields, "key"), LookupByKey(t1, failure), LookupByKey(t2, failure));
    }
  }

  /** Not finding the key is a normal answer, not an error. */
  lemma UnknownKeyIsPlainFalse(k: string, t: Table)
    requires k != ""
    requires forall x | x in t :: x.key != k
    ensures Validate(Object(map["key" := JStr(k)]), t, None) == Response(OK, Validity(false, None))
  {
    WithKeyNone(t, k);
  }
}

=== FILE: wrappers.dfy ===
/** Option and Result: the absent-value and error-value shapes used by every route and by the store. */
module Wrappers {

  /** `None` stands for JavaScript's `undefined`/`null` return or an absent field. */
  datatype Option<+T> = None | Some(value: T)

  /** A computation that either yields a value or throws an error carrying a message. */
  datatype Result<+T, +E> = Ok(value: T) | Err(error: E)
}
